=== FILE: README.md ===
# connect-pro profile acquisition, modelled in Dafny

This project models the profile acquisition core of connect-pro. That core covers four things:

- how a LinkedIn profile record is fetched and cleaned;
- how fields are pulled out of a rendered profile page;
- how the browser-based scraper manages its session and its cooldown;
- how web-search results are reduced to profile links.

The browser, HTTP, the search client, the clock and the file system are never modelled directly. Each becomes a parameter, an oracle the caller supplies.

The modules follow the source files:

- `ResponseCleaner` and `ProxycurlClient` model `LinkedInClient` in `proxycurl.py`.
  - `Clean` is `_clean_response`.
  - A JSON value is the `Json` datatype, and a dict is a `map<string, Json>`.
  - The HTTP layer is a function from request to response.
- `Document` is the abstract rendered page.
  - Each XPath the scrapers use becomes a `Locator`.
  - A lookup either finds an element's text or misses. A miss is `NoSuchElementException`.
  - The Experience and Education sections are optional sequences of per-item maps.
- `Extractors` is `extract_basic_info`, `extract_experiences` and `extract_education` over a `Page`. It covers:
  - the ordered fallback among candidate locators;
  - the city/country split;
  - the two date-range parses;
  - the dropping of entries without a title or a school.

  `Records` gives the dicts these functions build, as JSON objects. `Outcomes` is the fold shared by the "skip or append, unless an item raises" loops.
- `SeleniumScraper` is `SeleniumLinkedInScraper` as a state machine over a record. The record holds:
  - the credentials and the cooldown period;
  - whether a browser is open;
  - whether it is logged in;
  - the last scrape time, in integer ticks;
  - the `.linkedin_cooldown` marker.

  One call to `get_profile` is one `GetProfile` step. Its environment (`Env`) gives:
  - the clock reading;
  - whether the browser starts;
  - how the login page behaves;
  - how navigation goes;
  - whether the marker can be written.

  The inline extractors of `selenium_scraper.py` are identical, apart from logging, to those of `extractors.py` for the Experience and Education sections. The model reuses `ExtractExperiences` and `ExtractEducation` for them. The inline basic-info extractor uses one locator per field and is `InlineBasicInfo`.
- `TavilySearch` is the result filter of `get_profile_data_search_tavily`. The search client is a function from request to reply.

`Strings` holds the Python string operations the source uses, each modelled on Python's behaviour:

- `strip()` uses Python's whitespace set.
- `lower()` is modelled on ASCII letters.
- `in` on strings is a substring test.
- `split(sep)` is modelled by its first two pieces.
- `replace(old, "", 1)` removes the first occurrence.
- `a or b` picks the first non-empty value.

Behaviours of the code that the model keeps as written:

- The browser path does not run the cleaner. The record from `SeleniumLinkedInScraper.get_profile` is returned as extracted.
- A failed login does not raise. The browser is closed and `{}` is returned.
- A profile page that never renders raises, and the `finally` block still closes the browser. The session is not left open.
- The last scrape time is written only once the profile heading has appeared. A failed login or page load does not restart the cooldown.
- The cleaner works one level deep: on five named list fields only. It removes entries by their key ("url" anywhere in it, ignoring case), not by whether a value looks like a URL.
- Mock mode of `LinkedInClient` still performs an HTTP request, for a fixed document.
- Date ranges are split on the first `" - "`, and the first two pieces are taken even when empty. A range does not need exactly two non-empty parts.
- Some entries mention "field of study" in another letter case and lack the exact `"Field of study "` label. For these, `extract_education` raises `IndexError`, and `get_profile` turns it into a `ValueError`. The last scrape time has already been saved when that happens.

## Model

| member | source | states |
|---|---|---|
| ResponseCleaner.CleanItem | src/connect_pro/scrapers/linkedin/proxycurl.py:62-66 | A cleaned list item keeps exactly the entries whose value is not a placeholder and whose key does not mention "url". Kept values are unchanged. |
| ResponseCleaner.CleanItems | src/connect_pro/scrapers/linkedin/proxycurl.py:61-68 | A cleaned nested list has the same length and order. Item i is the cleaned item i. |
| ResponseCleaner.Clean | src/connect_pro/scrapers/linkedin/proxycurl.py:38-70 | The cleaner fails exactly when a surviving nested list holds a non-dict. Otherwise: its keys are exactly the input keys that pass the value, exclusion and url rules; no key mentions "url"; `people_also_viewed` and placeholders never survive; every non-nested value is unchanged; every nested list keeps its length, with each item cleaned. |
| ResponseCleaner.CleanNormalizes | src/connect_pro/scrapers/linkedin/proxycurl.py:43-68 | Every record the cleaner produces is normalized, at the top level and in every nested item. |
| ResponseCleaner.NormalizedIsFixed | src/connect_pro/scrapers/linkedin/proxycurl.py:38-70 | The cleaner leaves a normalized record unchanged. |
| ResponseCleaner.CleanIdempotent | src/connect_pro/scrapers/linkedin/proxycurl.py:38-70 | Cleaning twice gives the same record as cleaning once. |
| ResponseCleaner.EmptiedItemsStay | src/connect_pro/scrapers/linkedin/proxycurl.py:61-68 | A nested item with every entry removed stays in its list as `{}`. |
| ResponseCleaner.NonListNestedUntouched | src/connect_pro/scrapers/linkedin/proxycurl.py:59-60 | A nested field whose value is not a list is kept as it is. |
| ProxycurlClient.NewClient | src/connect_pro/scrapers/linkedin/proxycurl.py:11-12 | An explicit non-empty API key wins. Otherwise the configured key is used. |
| ProxycurlClient.ProfileRequest | src/connect_pro/scrapers/linkedin/proxycurl.py:20-26 | The live request goes to the API endpoint with a 10-second timeout. Its only parameter is `url`, the profile URL. Its only header is the bearer credential. |
| ProxycurlClient.Respond | src/connect_pro/scrapers/linkedin/proxycurl.py:27-28 | A request that raises (timeout, connection error) fails with `RequestFailed`. An error status raises with that status. A body that is not JSON fails with `DecodeError`, and a JSON body that is not an object, or holds a nested list item that is not one, fails with `AttributeError`. Success comes exactly from a JSON object the cleaner accepts, and its value is the cleaned, normalized record. |
| ProxycurlClient.GetProfile | src/connect_pro/scrapers/linkedin/proxycurl.py:15-35 | Mock mode fetches only the mock document. Live mode sends only the profile request. Either way, a returned record is normalized and a fixed point of the cleaner. |
| ProxycurlClient.MockIgnoresLiveService | src/connect_pro/scrapers/linkedin/proxycurl.py:17-18 | In mock mode, the answer depends only on what the HTTP layer says about the mock document. |
| ProxycurlClient.LiveIgnoresMockDocument | src/connect_pro/scrapers/linkedin/proxycurl.py:20-28 | Outside mock mode, the answer depends only on what the HTTP layer says about the profile request. |
| Extractors.FirstUsable | src/connect_pro/scrapers/linkedin/extractors.py:25-32 | The chosen text is the trimmed text of the first candidate that exists and has non-empty trimmed text. Every earlier candidate is missing or blank. There is no choice exactly when no candidate qualifies. |
| Extractors.LaterCandidatesIgnored | src/connect_pro/scrapers/linkedin/extractors.py:25-32 | Candidates after the first usable one are never consulted: pages that agree up to it give the same choice. |
| Extractors.SplitLocation | src/connect_pro/scrapers/linkedin/extractors.py:64-69 | Text with a comma gives a city and a country: the trimmed pieces before the first comma and between the first and second commas. Text without a comma gives the text itself as `location`. |
| Extractors.AboutText | src/connect_pro/scrapers/linkedin/extractors.py:95-105 | The last summary fallback is the About section's text. When "About" occurs in it, the first occurrence is removed and the rest trimmed. It is empty when the section is missing. |
| Extractors.ExtractBasicInfo | src/connect_pro/scrapers/linkedin/extractors.py:12-111 | Each field is set as follows. `full_name`: the first usable name candidate, or "". `headline`: the trimmed headline, or "". Location: the split of the first usable location candidate, or nothing when none qualifies. `summary`: the first usable summary candidate, or the About-section fallback. |
| Extractors.ExperienceDates | src/connect_pro/scrapers/linkedin/extractors.py:149-157 | Dates are found exactly when the text before the first " · " contains " - ". Both dates are then trimmed, or the end is "Present". The values are stated by `Extractors.ExperienceDatesValues`. |
| Extractors.ExperienceDatesValues | src/connect_pro/scrapers/linkedin/extractors.py:154-157 | For any text, found dates are the stripped piece before the first " - " (within the text before the first " · ") and the second " - " piece. That piece becomes "Present" when, unstripped, it lowers to "present", and is stripped otherwise. |
| Extractors.ExperiencePaddedPresent | src/connect_pro/scrapers/linkedin/extractors.py:154-157 | The "present" test looks at the unstripped piece: "start -  present", with an extra space, keeps the end as lower-case "present". |
| Extractors.ExperienceDatesRoundTrip | src/connect_pro/scrapers/linkedin/extractors.py:154-157 | Take a range "start - end", optionally followed by " · duration", where start and end are plain, trimmed date texts. Parsing it gives back start and end, with an end spelled "present" in any case normalised to "Present". |
| Extractors.EducationDates | src/connect_pro/scrapers/linkedin/extractors.py:227-230 | Dates are found exactly when the text contains " - ". Both are then trimmed. The values are stated by `Extractors.EducationDatesValues`. |
| Extractors.EducationDatesValues | src/connect_pro/scrapers/linkedin/extractors.py:227-230 | For any text, found dates are the stripped piece before the first " - " and the stripped second " - " piece (up to the next " - " or the end). |
| Extractors.EducationDatesRoundTrip | src/connect_pro/scrapers/linkedin/extractors.py:227-230 | "start - end" of plain, trimmed date texts parses back to start and end exactly, without normalising "present". |
| Extractors.ExtractExperience | src/connect_pro/scrapers/linkedin/extractors.py:129-180 | An entry is kept exactly when it has a title element, even an empty one. Then: `title` is its trimmed text; `company` is the trimmed company text or ""; the dates come from the parse; the location is trimmed when present; the description is present exactly when its trimmed text is non-empty. |
| Extractors.ExperienceList | src/connect_pro/scrapers/linkedin/extractors.py:128-180 | The output is never longer than the section. It is as long exactly when every entry has a title. Each output record is the extraction of some entry. |
| Extractors.ExperienceListKeepsOrder | src/connect_pro/scrapers/linkedin/extractors.py:128-180 | Extracting a concatenation gives the concatenation of the extractions, so kept entries keep source order. |
| Extractors.ExperienceListSingle | src/connect_pro/scrapers/linkedin/extractors.py:132-137 | A single entry is dropped exactly when it has no title. |
| Extractors.ExtractExperiences | src/connect_pro/scrapers/linkedin/extractors.py:113-185 | A missing Experience section gives `[]`. Otherwise the section's entries are extracted. |
| Extractors.FieldOfStudy | src/connect_pro/scrapers/linkedin/extractors.py:234-242 | There is no field of study when the text is missing or does not mention "field of study" in any case. The step raises exactly when it mentions it but lacks the exact label "Field of study ". When it holds the label, a value is produced; its value is stated by `Extractors.FieldOfStudyValue`. |
| Extractors.FieldOfStudyValue | src/connect_pro/scrapers/linkedin/extractors.py:239-240 | A produced field of study is the text between the first exact "Field of study " and the next one, or the end. |
| Extractors.FieldOfStudyRoundTrip | src/connect_pro/scrapers/linkedin/extractors.py:239-240 | "Field of study " followed by a value without the label gives back that value. |
| Extractors.FieldOfStudyCaseMismatch | src/connect_pro/scrapers/linkedin/extractors.py:239-240 | "FIELD OF STUDY Physics" passes the case-insensitive test and then raises on the exact split. |
| Extractors.ExtractEducationEntry | src/connect_pro/scrapers/linkedin/extractors.py:203-244 | An entry without a school is skipped. With a school, it raises exactly when the field-of-study step raises, and is kept otherwise. A kept entry has the trimmed school and degree texts, the dates from the plain parse, and the field of study as extracted. |
| Extractors.EducationList | src/connect_pro/scrapers/linkedin/extractors.py:202-244 | The section raises exactly when some entry raises. Otherwise the output is never longer than the section, is as long exactly when every entry has a school, and each record is the extraction of some entry. |
| Extractors.EducationListKeepsOrder | src/connect_pro/scrapers/linkedin/extractors.py:202-244 | On a concatenation, the first part's error wins. Otherwise the results concatenate in source order. |
| Extractors.ExtractEducation | src/connect_pro/scrapers/linkedin/extractors.py:187-249 | A missing Education section gives `[]`. The output is never longer than the section. |
| Outcomes.GatherFacts | src/connect_pro/scrapers/linkedin/extractors.py:202-244 | A skip-or-append loop raises exactly when some item raises. Otherwise it keeps at most one value per item, keeps all exactly when no item is skipped, and every kept value comes from an item. |
| Outcomes.GatherAppend | src/connect_pro/scrapers/linkedin/extractors.py:202-244 | The loop over a concatenation is the loop over each part: the first error wins, and kept values concatenate in order. |
| Outcomes.KeepFacts | src/connect_pro/scrapers/linkedin/extractors.py:128-180 | A skip-or-append loop that cannot raise keeps at most one value per item. It keeps all of them exactly when no item is skipped, and every kept value comes from an item. |
| Outcomes.KeepAppend | src/connect_pro/scrapers/linkedin/extractors.py:128-180 | That loop over a concatenation is the concatenation of the loops over each part. |
| Records.PlaceObject | src/connect_pro/scrapers/linkedin/extractors.py:64-69 | `city` and `country` appear together, exactly for a split location. `location` appears exactly for unsplit text. No other key appears. |
| Records.BasicInfoObject | src/connect_pro/scrapers/linkedin/extractors.py:12-111 | `full_name`, `headline` and `summary` are always present, with their values. `city` and `country` appear together, with the split values, exactly for a split location. `location` appears, with its text, exactly for an unsplit one. |
| Records.ExperienceObject | src/connect_pro/scrapers/linkedin/extractors.py:129-180 | `title` and `company` are always present. The dates come as a pair. `location` and `description` appear only when found. Every present key holds the entry's value. |
| Records.EducationObject | src/connect_pro/scrapers/linkedin/extractors.py:203-244 | `school` is always present. `degree`, the pair of dates and `field_of_study` appear only when found. Every present key holds the entry's value. |
| SeleniumScraper.LoadMarker | src/connect_pro/scrapers/linkedin/selenium_scraper.py:45-54 | A missing or unreadable marker leaves no prior scrape time. A readable one gives its time. |
| SeleniumScraper.NewScraper | src/connect_pro/scrapers/linkedin/selenium_scraper.py:27-43 | Construction fails exactly when the username or the password is empty after the settings fallback. An explicit non-empty username or password wins over the configured one. An omitted cooldown period is 120. A new scraper has no browser, is logged out, and takes its last scrape time from the marker. |
| SeleniumScraper.CooldownWait | src/connect_pro/scrapers/linkedin/selenium_scraper.py:65-72 | The wait is never negative, and zero without a prior time. After it, the clock is at the later of now and the last scrape time plus the period. |
| SeleniumScraper.CloseDriver | src/connect_pro/scrapers/linkedin/selenium_scraper.py:102-107 | Afterwards there is no browser, and a closed browser means logged out. Without a browser nothing changes. |
| SeleniumScraper.CloseIdempotent | src/connect_pro/scrapers/linkedin/selenium_scraper.py:102-107 | Closing twice is closing once. |
| SeleniumScraper.Login | src/connect_pro/scrapers/linkedin/selenium_scraper.py:110-145 | An already logged-in scraper succeeds without touching the browser. Otherwise, with a browser: it logs in exactly when the page lands on a URL containing "feed", "checkpoint" or "/in/"; it returns false, with nothing changed, on a missing field, a timeout or another URL; it raises on other browser failures. |
| SeleniumScraper.SaveScrapeTime | src/connect_pro/scrapers/linkedin/selenium_scraper.py:56-63 | The time is kept in memory even when the marker cannot be written. A written marker reads back as that time. Nothing else changes. |
| SeleniumScraper.InlineBasicInfo | src/connect_pro/scrapers/linkedin/selenium_scraper.py:148-196 | Each field is the trimmed text of its one locator, or "". The location is split as in `extract_basic_info`. A located text holding a comma always gives a city and a country. |
| SeleniumScraper.ScrapeRendered | src/connect_pro/scrapers/linkedin/selenium_scraper.py:372-386 | Once the profile renders, the time is saved before extraction. The scrape raises exactly when the Education section raises. Otherwise it returns the inline basic info, the experiences and the education. The browser ends closed. |
| SeleniumScraper.CooldownCases | src/connect_pro/scrapers/linkedin/selenium_scraper.py:65-72 | No prior scrape time means no sleep. A prior time at least a period ago means no sleep. Otherwise the sleep ends exactly a period after the prior time. |
| SeleniumScraper.GetProfile | src/connect_pro/scrapers/linkedin/selenium_scraper.py:336-386 | Mock mode returns the canned record and changes nothing. Every other call ends with no browser and logged out. A failed login returns `{}`. The last scrape time moves only once the profile renders, and then to exactly now plus the cooldown wait plus the lag, so no earlier than now and than the old time plus the period, with a written marker reproducing it. Once login succeeds and the profile renders, the call returns the scraped record (the inline basic info, the experiences and the education) exactly when the Education section does not raise. The causes are: `DriverSetupFailed` when the browser cannot start; `BrowserFailure` when the login page or the navigation fails; `ProfileNotRendered` when the heading never appears; `FieldOfStudyMismatch` when the Education section raises. |
| SeleniumScraper.ReplyObject | src/connect_pro/scrapers/linkedin/selenium_scraper.py:346-380 | The canned record is `{"Full Name": "Test Test", "Status": "Success"}`, and a failed login gives `{}`. A scrape gives the profile record. |
| SeleniumScraper.ProfileObject | src/connect_pro/scrapers/linkedin/selenium_scraper.py:375-380 | The profile record has the basic-information keys with their values, plus `experiences` and `education`. Those lists hold one dict per extracted entry, in order. |
| SeleniumScraper.RestartKeepsCooldown | src/connect_pro/scrapers/linkedin/selenium_scraper.py:45-63 | A scraper rebuilt from the marker a successful scrape wrote starts with the same last scrape time, so it waits the same. |
| SeleniumScraper.Serve | src/connect_pro/scrapers/linkedin/selenium_scraper.py:336-386 | Over any run of calls: each call answers, and mock calls are exactly the canned ones. After a non-mock call the scraper is logged out with no browser, and stays so. The credentials never change. With a non-negative period, the last scrape time never moves backwards. |
| TavilySearch.SearchFor | src/connect_pro/search/tavily_search.py:19-24 | The query sent is the input followed by " linkedin profile", with a basic search of at most five results. |
| TavilySearch.Mentions | src/connect_pro/search/tavily_search.py:33 | The url test is a substring test on a string, membership on a list, or a key test on a dict. It raises on a number, boolean or null. |
| TavilySearch.StripValue | src/connect_pro/search/tavily_search.py:29-30 | Stripping succeeds exactly on strings, and its result is stripped. |
| TavilySearch.Screen | src/connect_pro/search/tavily_search.py:27-34 | A non-dict result raises. A result is skipped exactly when its url (default "") does not mention the marker. It is kept exactly when its url and title (default "") are strings and the url mentions "linkedin.com/in/". A kept result's url and title are trimmed, and the url still contains the marker. |
| TavilySearch.FilterResults | src/connect_pro/search/tavily_search.py:27-34 | The filter raises exactly when some result raises. Otherwise the output is never longer than the input, is as long exactly when every result is kept, and each hit is the projection of a kept result. Every hit's url contains "linkedin.com/in/" and is trimmed, as is its title. |
| TavilySearch.FilterKeepsOrder | src/connect_pro/search/tavily_search.py:27-34 | Filtering a concatenation concatenates the filtered parts, so kept results keep their order. |
| TavilySearch.RawResults | src/connect_pro/search/tavily_search.py:32 | A missing "results" key gives `[]`, and a list gives its items. An empty string or dict gives `[]`. Any other value raises. |
| TavilySearch.ProfileSearch | src/connect_pro/search/tavily_search.py:18-39 | A search call that raises gives `None`. Otherwise the result is `Some` exactly when the "results" value can be iterated and the filter does not raise, and then it is the filter's output. A response without "results" gives `[]`, and every returned url contains "linkedin.com/in/". |
| TavilySearch.HitObject | src/connect_pro/search/tavily_search.py:28-31 | An output record has exactly the keys `url` and `title`. |
| TavilySearch.FilterIdempotent | src/connect_pro/search/tavily_search.py:27-34 | Filtering the output records again keeps every one of them unchanged. |
| TavilySearch.NoProfileLinks | src/connect_pro/search/tavily_search.py:27-34 | Dict results whose string urls lack the marker are all dropped, without error. |
| Strings.ContainsSurvivesTrim | src/connect_pro/search/tavily_search.py:29-33 | Trimming does not destroy a substring that starts and ends with non-space characters. The marker tested before the strip is still in the stripped url. |
| Strings.SplitJoined | src/connect_pro/scrapers/linkedin/extractors.py:154-157 | Take a + sep + b, where sep holds some character exactly once (its marker, such as '-' in " - ") and a lacks that character. Splitting it gives a as the first piece. When b lacks the marker too, b is the second piece. |

## Left out

- Browser automation is not modelled: driver setup and its options, XPath evaluation, `find_element`, sleeps and `WebDriverWait`. A page is the `Document.Page` abstraction. Navigation, login and driver start-up are outcomes in `Env`.
- HTTP and the search client are not modelled: `requests.get` (including the mock document fetch) and `TavilyClient.search`. They are functions from request to response that the caller passes in.
- `datetime`, ISO-8601 text and float seconds are not modelled. Time is integer ticks, and the marker file is the `Marker` datatype. The cooldown sleep advances the clock by exactly the wait. `Env.lag` is the time between the end of the sleep and the profile heading appearing.
- SeleniumScraper.CooldownWait: the source's fractional seconds are modelled as whole ticks.
- SeleniumScraper.SaveScrapeTime: `writeOk == false` stands for a write that fails before the file is opened, which leaves the marker unchanged. `Path.write_text` truncates first, so a failure part-way through (disk full, an I/O error) can leave an empty marker that reloads as `Unreadable`; that partial write is not modelled.
- Python dict iteration order is not modelled, because JSON objects are maps. Output dicts of the cleaner compare equal regardless of order.
- JSON floats are not modelled: numbers are integers. The cleaner only compares values against `[]`, `""`, `"None"` and `None`, so no rule depends on numbers.
- Strings.Lower: lowers ASCII letters only, not the full Unicode case mapping. Every comparison the source makes after lowering is against ASCII text ("url", "present", "field of study").
- Logging and `print` side effects are not modelled.
- `driver.quit()` raising inside `_close_driver` is not modelled. The source would then leave the driver set; the model's close always succeeds, and the idle-after-call guarantees of `SeleniumScraper.GetProfile` and `SeleniumScraper.Serve` rest on that.
- The construction of `TavilyClient` is not modelled. It sits before the `try` in `get_profile_data_search_tavily`, so a failure there raises instead of giving `None`; the model starts from a built client.
- Browser failures are not told apart. Only the cases the source distinguishes are kept: `_login` catches timeouts and missing elements, and everything else becomes `ValueError` in `get_profile`.
- Concurrency and the reuse of one scraper from several threads are not modelled. The source is single-threaded.
- The language-model agent, prompts, model factory, schemas, settings loading, web API, command line and UI are not modelled. They are outside the acquisition core. Settings values enter the model as parameters (`configuredKey`, `configuredUsername`, `configuredPassword`).

=== FILE: cleaner.dfy ===
/**
 * `LinkedInClient._clean_response`: the filter that strips empty,
 * placeholder, excluded and link-bearing fields from a profile record,
 * at the top level and inside the items of five list-of-record fields.
 */
module ResponseCleaner {
  import opened Wrappers
  import opened Strings
  import opened Json

  /** Top-level keys dropped whatever their value. */
  const ExcludedFields: set<string> := {"people_also_viewed"}

  /** Fields whose list items are cleaned one level deep. */
  const NestedFields: seq<string> := ["experiences", "education", "volunteer_work", "certifications", "groups"]

  /** The values `[]`, `""`, `"None"` and `None`, which are never kept. */
  predicate IsPlaceholder(v: Json) {
    v == JArr([]) || v == JStr("") || v == JStr("None") || v == JNull
  }

  /** The key contains "url", ignoring case. */
  predicate MentionsUrl(k: string) {
    Contains(Lower(k), "url")
  }

  /** Whether a top-level entry survives the first pass. */
  predicate KeepTop(k: string, v: Json) {
    !IsPlaceholder(v) && k !in ExcludedFields && !MentionsUrl(k)
  }

  /** Whether an entry of a nested list item survives. */
  predicate KeepInItem(k: string, v: Json) {
    !IsPlaceholder(v) && !MentionsUrl(k)
  }

  /** A top-level entry whose items get cleaned: a nested field holding a list. */
  predicate IsNestedList(k: string, v: Json) {
    k in NestedFields && v.JArr?
  }

  predicate AllObjects(items: seq<Json>) {
    forall i :: 0 <= i < |items| ==> items[i].JObj?
  }

  /**
   * A surviving nested list that holds a non-dict item: Python's
   * `item.items()` raises `AttributeError` on it.
   */
  predicate BreaksNested(k: string, v: Json) {
    IsNestedList(k, v) && !AllObjects(v.items)
  }

  /** One item of a nested list, cleaned. */
  function CleanItem(item: Object): (r: Object)
    ensures forall k :: k in r <==> k in item && KeepInItem(k, item[k])
    ensures forall k :: k in r ==> r[k] == item[k]
  {
    map k | k in item && KeepInItem(k, item[k]) :: item[k]
  }

  /** Every item of a nested list, cleaned, in order. */
  function CleanItems(items: seq<Json>): (r: seq<Json>)
    requires AllObjects(items)
    ensures |r| == |items|
    ensures forall i :: 0 <= i < |items| ==> r[i] == JObj(CleanItem(items[i].fields))
  {
    seq(|items|, i requires 0 <= i < |items| => JObj(CleanItem(items[i].fields)))
  }

  /** The value a surviving top-level entry ends up with. */
  function CleanValue(k: string, v: Json): Json
    requires !BreaksNested(k, v)
  {
    if IsNestedList(k, v) then JArr(CleanItems(v.items)) else v
  }

  /**
   * The cleaned record, or `None` when Python raises because a surviving
   * nested list holds an item that is not a dict.
   */
  function Clean(d: Object): (r: Option<Object>)
    ensures r.None? <==> exists k :: k in d && KeepTop(k, d[k]) && BreaksNested(k, d[k])
    ensures r.Some? ==> forall k :: k in r.value <==> k in d && KeepTop(k, d[k])
    ensures r.Some? ==> forall k :: k in r.value ==>
              && !MentionsUrl(k)
              && k != "people_also_viewed"
              && !IsPlaceholder(r.value[k])
    ensures r.Some? ==> forall k :: k in r.value && !IsNestedList(k, d[k]) ==> r.value[k] == d[k]
    ensures r.Some? ==> forall k :: k in r.value && IsNestedList(k, d[k]) ==>
              && r.value[k].JArr?
              && |r.value[k].items| == |d[k].items|
              && forall i :: 0 <= i < |d[k].items| ==>
                   d[k].items[i].JObj? && r.value[k].items[i] == JObj(CleanItem(d[k].items[i].fields))
  {
    if exists k | k in d :: KeepTop(k, d[k]) && BreaksNested(k, d[k]) then None
    else
      var c := map k | k in d && KeepTop(k, d[k]) :: CleanValue(k, d[k]);
      assert forall k :: k in c && IsNestedList(k, d[k]) ==> c[k] != JArr([]) by {
        forall k | k in c && IsNestedList(k, d[k])
          ensures c[k] != JArr([])
        {
          assert d[k] != JArr([]);
          assert |c[k].items| == |d[k].items|;
        }
      }
      Some(c)
  }

  /** A record cleaning would leave as it is. */
  predicate ItemNormalized(item: Object) {
    forall k :: k in item ==> KeepInItem(k, item[k])
  }

  predicate Normalized(o: Object) {
    && (forall k :: k in o ==> KeepTop(k, o[k]))
    && (forall k :: k in o && IsNestedList(k, o[k]) ==>
          forall i :: 0 <= i < |o[k].items| ==> o[k].items[i].JObj? && ItemNormalized(o[k].items[i].fields))
  }

  /** Every record the cleaner produces is normalized. */
  lemma CleanNormalizes(d: Object)
    requires Clean(d).Some?
    ensures Normalized(Clean(d).value)
  {
    var c := Clean(d).value;
    forall k | k in c && IsNestedList(k, c[k])
      ensures forall i :: 0 <= i < |c[k].items| ==> c[k].items[i].JObj? && ItemNormalized(c[k].items[i].fields)
    {
      assert IsNestedList(k, d[k]);
    }
  }

  /** A normalized record is a fixed point of the cleaner. */
  lemma NormalizedIsFixed(o: Object)
    requires Normalized(o)
    ensures Clean(o) == Some(o)
  {
    var c := Clean(o).value;
    forall k | k in o
      ensures c[k] == o[k]
    {
      if IsNestedList(k, o[k]) {
        var items := o[k].items;
        forall i | 0 <= i < |items|
          ensures c[k].items[i] == items[i]
        {
          var f := items[i].fields;
          assert CleanItem(f) == f;
        }
        assert c[k].items == items;
      }
    }
    assert c == o;
  }

  /** Cleaning twice is cleaning once. */
  lemma CleanIdempotent(d: Object)
    requires Clean(d).Some?
    ensures Clean(Clean(d).value) == Clean(d)
  {
    CleanNormalizes(d);
    NormalizedIsFixed(Clean(d).value);
  }

  /**
   * A nested item from which every entry is removed is kept as `{}`:
   * cleaning never changes how many items a nested list has.
   */
  lemma EmptiedItemsStay(d: Object, k: string, i: int)
    requires Clean(d).Some? && k in Clean(d).value && IsNestedList(k, d[k])
    requires 0 <= i < |d[k].items| && forall f :: f in d[k].items[i].fields ==> !KeepInItem(f, d[k].items[i].fields[f])
    ensures Clean(d).value[k].items[i] == JObj(map[])
  {
    var item := d[k].items[i].fields;
    assert CleanItem(item) == map[];
  }

  /** A nested field that does not hold a list is passed through untouched. */
  lemma NonListNestedUntouched(d: Object, k: string)
    requires Clean(d).Some? && k in NestedFields && k in d && KeepTop(k, d[k]) && !d[k].JArr?
    ensures Clean(d).value[k] == d[k]
  {
  }
}

=== FILE: document.dfy ===
/**
 * A rendered profile page, seen only through the element lookups the
 * extractors make. Each XPath the source uses becomes an opaque locator;
 * a lookup either finds an element (and reads its text) or raises
 * `NoSuchElementException`, which here is a missing key.
 */
module Document {
  import opened Wrappers

  /** Page-level locators, one per distinct XPath. */
  datatype Locator =
    // full name chain of extractors.py
    | NameInlineT24         // h1 with classes 'inline' and 't-24'
    | NameGeneratedClass    // h1 with the generated class name
    | AnyHeading1           // any h1
    // headline, shared by both extractor sets
    | HeadlineText          // div with class 'text-body-medium'
    // location chain of extractors.py
    | LocationPrecise       // span 'text-body-small' + 'inline' + 't-black--light'
    | LocationSmallText     // span 'text-body-small'
    // summary chain of extractors.py
    | SummaryClamped        // div 'inline-show-more-text--is-collapsed-with-line-clamp'
    | SummaryShowMore       // div 'inline-show-more-text'
    | SummaryBreakWords     // 'break-words' div inside the About section
    | AboutSection          // the section holding an 'About' span
    // inline extractors of selenium_scraper.py
    | NameTextHeading       // h1 with class 'text-heading'
    | LocationWithComma     // span 'text-body-small' whose text holds a comma
    | AboutFollowing        // the div following the 'About' heading block

  /** Locators evaluated relative to one list item of the Experience or Education section. */
  datatype EntryLocator =
    | BoldSpan              // span 'mr1 t-bold': the job title
    | NormalSpan            // span 't-14 t-normal': company, or degree
    | LightSpan             // span 't-14 t-normal t-black--light': the date range
    | SecondLightSpan       // the second such span: the job location
    | NormalDiv             // div 't-14 t-normal': the job description
    | SchoolHeading         // h3 't-16': the school
    | SecondNormalSpan      // the second 't-14 t-normal' span: the field of study

  /** One list item of a section: the text of every element its locators find. */
  type Entry = map<EntryLocator, string>

  /**
   * A rendered page: the text of every element a page-level locator finds,
   * and the list items of the Experience and Education sections (`None`
   * when the section heading is not found).
   */
  datatype Page = Page(elements: map<Locator, string>, experience: Option<seq<Entry>>, education: Option<seq<Entry>>)

  /** `driver.find_element(...).text`, or `None` for `NoSuchElementException`. */
  function Text(page: Page, loc: Locator): Option<string> {
    if loc in page.elements then Some(page.elements[loc]) else None
  }

  /** `entry.find_element(...).text`, or `None` for `NoSuchElementException`. */
  function EntryText(entry: Entry, loc: EntryLocator): Option<string> {
    if loc in entry then Some(entry[loc]) else None
  }
}

=== FILE: extractors.dfy ===
/**
 * The field extractors of extractors.py: ordered-fallback choice among
 * candidate locators, the city/country split, the date-range parses, and
 * the Experience and Education sections with their dropped entries.
 */
module Extractors {
  import opened Wrappers
  import opened Strings
  import opened Document
  import opened Outcomes

  // ---------------------------------------------------------------------------
  // Ordered fallback

  /** Candidate locators for the full name, most specific first. */
  const NameChain: seq<Locator> := [NameInlineT24, NameGeneratedClass, AnyHeading1]

  /** Candidate locators for the location line. */
  const LocationChain: seq<Locator> := [LocationPrecise, LocationSmallText]

  /** Candidate locators for the summary, before the About-section fallback. */
  const SummaryChain: seq<Locator> := [SummaryClamped, SummaryShowMore, SummaryBreakWords]

  /** The candidate finds an element whose stripped text is not empty. */
  predicate Usable(page: Page, loc: Locator) {
    loc in page.elements && Trim(page.elements[loc]) != ""
  }

  /** Candidate `i` is the first usable one. */
  predicate IsFirstUsable(page: Page, cands: seq<Locator>, i: int) {
    0 <= i < |cands| && Usable(page, cands[i]) && forall j :: 0 <= j < i ==> !Usable(page, cands[j])
  }

  predicate NoneUsable(page: Page, cands: seq<Locator>) {
    forall i :: 0 <= i < |cands| ==> !Usable(page, cands[i])
  }

  /**
   * `v` is what the first-success policy commits to: the stripped text of
   * the first usable candidate, or nothing when no candidate is usable.
   */
  predicate FirstChoice(page: Page, cands: seq<Locator>, v: Option<string>) {
    && (v.None? <==> NoneUsable(page, cands))
    && forall i | 0 <= i < |cands| :: IsFirstUsable(page, cands, i) ==> v == Some(Trim(page.elements[cands[i]]))
  }

  /** Try the candidates in order; commit to the first with non-blank text. */
  function FirstUsable(page: Page, cands: seq<Locator>): (r: Option<string>)
    ensures FirstChoice(page, cands, r)
  {
    if |cands| == 0 then None
    else if Usable(page, cands[0]) then Some(Trim(page.elements[cands[0]]))
    else
      var r := FirstUsable(page, cands[1..]);
      assert forall i :: 1 <= i < |cands| ==> cands[1..][i - 1] == cands[i];
      assert forall i :: IsFirstUsable(page, cands, i) ==> i >= 1 && IsFirstUsable(page, cands[1..], i - 1);
      r
  }

  /**
   * Candidates after the one committed to are never consulted: a page that
   * agrees on the first `k + 1` candidates gives the same choice.
   */
  lemma LaterCandidatesIgnored(page1: Page, page2: Page, cands: seq<Locator>, k: int)
    requires IsFirstUsable(page1, cands, k)
    requires forall j :: 0 <= j <= k ==> Text(page1, cands[j]) == Text(page2, cands[j])
    ensures FirstUsable(page1, cands) == FirstUsable(page2, cands)
  {
    forall j | 0 <= j <= k
      ensures Usable(page1, cands[j]) == Usable(page2, cands[j])
    {
      assert Text(page1, cands[j]) == Text(page2, cands[j]);
    }
    assert IsFirstUsable(page2, cands, k);
    assert Text(page1, cands[k]) == Text(page2, cands[k]);
  }

  // ---------------------------------------------------------------------------
  // Location

  /** Where the profile says the person is. */
  datatype Place = CityCountry(city: string, country: string) | Single(location: string) | NoPlace

  /** `text[lo..hi]` is one comma-separated field: no comma inside, a comma or the end after it. */
  predicate CommaField(text: string, lo: int, hi: int) {
    && 0 <= lo <= hi <= |text|
    && (forall m :: lo <= m < hi ==> text[m] != ',')
    && (hi == |text| || text[hi] == ',')
  }

  /** The first comma is at `i` and the second field ends at `j`. */
  predicate CommaSplit(text: string, i: int, j: int) {
    FirstOccurrence(text, ",", i) && CommaField(text, i + 1, j)
  }

  /**
   * A location line with a comma becomes city (first field, stripped) and
   * country (second field, stripped); one without stays whole.
   */
  function SplitLocation(text: string): (r: Place)
    ensures !r.NoPlace?
    ensures r.CityCountry? <==> Contains(text, ",")
    ensures r.Single? ==> r.location == text
    ensures r.CityCountry? ==>
              exists i, j :: CommaSplit(text, i, j) && r.city == Trim(text[..i]) && r.country == Trim(text[i + 1..j])
  {
    var p := SplitTwo(text, ",");
    if p.second.None? then Single(text)
    else
      var i := |p.first|;
      var j := i + 1 + |p.second.value|;
      CommaPieces(text, p);
      CityCountry(Trim(p.first), Trim(p.second.value))
  }

  /** The two pieces of a comma split are the text before the first comma and the field after it. */
  lemma CommaPieces(text: string, p: Pieces)
    requires p == SplitTwo(text, ",") && p.second.Some?
    ensures var i := |p.first|;
            var j := i + 1 + |p.second.value|;
            CommaSplit(text, i, j) && text[..i] == p.first && text[i + 1..j] == p.second.value
  {
    var i := |p.first|;
    var j := i + 1 + |p.second.value|;
    forall m | i + 1 <= m < j
      ensures text[m] != ','
    {
      assert !OccursAt(text, ",", m);
      assert text[m..m + 1] == [text[m]];
    }
    assert j < |text| ==> text[j..j + 1] == ",";
    assert text[..j][..i] == text[..i];
    assert text[..j][i + 1..j] == text[i + 1..j];
    assert text[..i] == p.first && text[i + 1..j] == p.second.value;
  }

  // ---------------------------------------------------------------------------
  // Basic information

  /** `extract_basic_info`'s record: these four are always present. */
  datatype BasicInfo = BasicInfo(fullName: string, headline: string, place: Place, summary: string)

  /** A single-locator field: the stripped text, or `""` when the element is missing. */
  function TextOrEmpty(page: Page, loc: Locator): (r: string)
    ensures loc !in page.elements ==> r == ""
    ensures loc in page.elements ==> r == Trim(page.elements[loc])
  {
    match Text(page, loc)
    case Some(t) => Trim(t)
    case None => ""
  }

  /**
   * The last summary fallback: the About section's text with its first
   * "About" cut out and then stripped; the raw text when it has no "About";
   * `""` when the section is missing.
   */
  function AboutText(page: Page): (r: string)
    ensures AboutSection !in page.elements ==> r == ""
    ensures AboutSection in page.elements && !Contains(page.elements[AboutSection], "About") ==> r == page.elements[AboutSection]
    ensures AboutSection in page.elements && Contains(page.elements[AboutSection], "About") ==>
              r == Trim(RemoveFirst(page.elements[AboutSection], "About"))
  {
    match Text(page, AboutSection)
    case None => ""
    case Some(a) => if Contains(a, "About") then Trim(RemoveFirst(a, "About")) else a
  }

  /** `v`, or `None` for the empty string. */
  function NonEmpty(v: string): Option<string> {
    if v == "" then None else Some(v)
  }

  /**
   * `extract_basic_info`: never fails on a missing element. The name and
   * the location follow their candidate chains; the summary its chain and
   * then the About section; the headline is `""` when missing.
   */
  function ExtractBasicInfo(page: Page): (r: BasicInfo)
    ensures FirstChoice(page, NameChain, NonEmpty(r.fullName))
    ensures r.headline == TextOrEmpty(page, HeadlineText)
    ensures r.place.NoPlace? <==> NoneUsable(page, LocationChain)
    ensures forall i :: IsFirstUsable(page, LocationChain, i) ==> r.place == SplitLocation(Trim(page.elements[LocationChain[i]]))
    ensures forall i :: IsFirstUsable(page, SummaryChain, i) ==> r.summary == Trim(page.elements[SummaryChain[i]])
    ensures NoneUsable(page, SummaryChain) ==> r.summary == AboutText(page)
  {
    var name := FirstUsable(page, NameChain);
    var place := match FirstUsable(page, LocationChain) case None => NoPlace case Some(t) => SplitLocation(t);
    var summary := match FirstUsable(page, SummaryChain) case None => AboutText(page) case Some(t) => t;
    BasicInfo(name.GetOr(""), TextOrEmpty(page, HeadlineText), place, summary)
  }

  // ---------------------------------------------------------------------------
  // Date ranges

  datatype DateRange = DateRange(start: string, end: string)

  /** The separator before the duration annotation ("Jan 2020 - Present · 4 yrs"). */
  const DurationSep := " \U{00B7} "

  /** The separator between start and end. */
  const RangeSep := " - "

  /** The end of an experience range: "Present" when the raw piece reads "present" in any case, else the stripped piece. */
  function ExperienceEnd(piece: string): string {
    if Lower(piece) == "present" then "Present" else Trim(piece)
  }

  /**
   * `d` is the range in `head`: the start is the stripped text before the
   * first " - ", the end the second " - " piece, stripped, or for an
   * experience range passed through `ExperienceEnd`.
   */
  predicate RangeIn(head: string, d: DateRange, experience: bool) {
    exists i, j | 0 <= i <= j <= |head| ::
      && SecondField(head, RangeSep, i, j)
      && d.start == Trim(head[..i])
      && d.end == (if experience then ExperienceEnd(head[i + |RangeSep|..j]) else Trim(head[i + |RangeSep|..j]))
  }

  /**
   * An experience date range: the text before the first " · ", split on
   * " - "; with two or more pieces the first two are start and end, an end
   * reading "present" in any case becoming "Present".
   */
  function ExperienceDates(text: string): (r: Option<DateRange>)
    ensures r.Some? <==> Contains(SplitTwo(text, DurationSep).first, RangeSep)
    ensures r.Some? ==> Trim(r.value.start) == r.value.start
    ensures r.Some? ==> r.value.end == "Present" || Trim(r.value.end) == r.value.end
  {
    var head := SplitTwo(text, DurationSep).first;
    var p := SplitTwo(head, RangeSep);
    match p.second
    case None => None
    case Some(e) =>
      TrimIdempotent(p.first);
      TrimIdempotent(e);
      Some(DateRange(Trim(p.first), ExperienceEnd(e)))
  }

  /** An education date range: a plain " - " split, no "Present" normalisation. */
  function EducationDates(text: string): (r: Option<DateRange>)
    ensures r.Some? <==> Contains(text, RangeSep)
    ensures r.Some? ==> Trim(r.value.start) == r.value.start && Trim(r.value.end) == r.value.end
  {
    var p := SplitTwo(text, RangeSep);
    match p.second
    case None => None
    case Some(e) =>
      TrimIdempotent(p.first);
      TrimIdempotent(e);
      Some(DateRange(Trim(p.first), Trim(e)))
  }

  /** The experience range found is the start and the normalised end around the first " - " before any " · ". */
  lemma ExperienceDatesValues(text: string)
    ensures var r := ExperienceDates(text);
            r.Some? ==> RangeIn(SplitTwo(text, DurationSep).first, r.value, true)
  {
    var head := SplitTwo(text, DurationSep).first;
    if SplitTwo(head, RangeSep).second.Some? {
      PiecesAreRange(head, true);
    }
  }

  /** The education range found is the stripped text around the first " - ". */
  lemma EducationDatesValues(text: string)
    ensures var r := EducationDates(text);
            r.Some? ==> RangeIn(text, r.value, false)
  {
    if SplitTwo(text, RangeSep).second.Some? {
      PiecesAreRange(text, false);
    }
  }

  /** The first two " - " pieces, stripped (and normalised for experience), are the range in the text. */
  lemma PiecesAreRange(head: string, experience: bool)
    requires SplitTwo(head, RangeSep).second.Some?
    ensures var p := SplitTwo(head, RangeSep);
            var e := p.second.value;
            RangeIn(head, DateRange(Trim(p.first), if experience then ExperienceEnd(e) else Trim(e)), experience)
  {
    var p := SplitTwo(head, RangeSep);
    SplitTwoFields(head, RangeSep);
    var i := |p.first|;
    var j := i + |RangeSep| + |p.second.value|;
    assert SecondField(head, RangeSep, i, j);
  }

  /** A date without dashes or middle dots, surrounded by no whitespace: "Jan 2020", "Present". */
  predicate PlainDate(d: string) {
    Lacks(d, '-') && Lacks(d, '\U{00B7}') && Stripped(d)
  }

  /** Splitting "start - end" on " - " gives back start and end. */
  lemma RangeSplits(start: string, end: string)
    requires Lacks(start, '-') && Lacks(end, '-')
    ensures SplitTwo(start + RangeSep + end, RangeSep) == Pieces(start, Some(end))
  {
    assert MarksSeparator(RangeSep, 1);
    SplitJoined(start, RangeSep, end, 1);
  }

  /** The text before the first " · " is the whole range, annotated or not. */
  lemma HeadIsRange(range: string, duration: string, annotated: bool)
    requires Lacks(range, '\U{00B7}')
    ensures SplitTwo(range + (if annotated then DurationSep + duration else ""), DurationSep).first == range
  {
    if annotated {
      AnnotatedHead(range, duration);
      assert range + DurationSep + duration == range + (DurationSep + duration);
    } else {
      PlainHead(range);
      assert range + "" == range;
    }
  }

  lemma AnnotatedHead(range: string, duration: string)
    requires Lacks(range, '\U{00B7}')
    ensures SplitTwo(range + DurationSep + duration, DurationSep).first == range
  {
    assert MarksSeparator(DurationSep, 1);
    SplitJoined(range, DurationSep, duration, 1);
  }

  lemma PlainHead(range: string)
    requires Lacks(range, '\U{00B7}')
    ensures SplitTwo(range, DurationSep).first == range
  {
    assert MarksSeparator(DurationSep, 1);
    SplitWithoutMarker(range, DurationSep, 1);
  }

  /**
   * Rendering a range the way the page does and parsing it back gives the
   * range, with an end reading "present" in any case normalised, whether
   * or not a " · duration" annotation follows.
   */
  lemma ExperienceDatesRoundTrip(start: string, end: string, duration: string, annotated: bool)
    requires PlainDate(start) && PlainDate(end)
    ensures var text := start + RangeSep + end + (if annotated then DurationSep + duration else "");
            ExperienceDates(text) == Some(DateRange(start, if Lower(end) == "present" then "Present" else end))
  {
    var range := start + RangeSep + end;
    LacksJoined(start, RangeSep, end, '\U{00B7}');
    var text := range + (if annotated then DurationSep + duration else "");
    HeadIsRange(range, duration, annotated);
    assert SplitTwo(text, DurationSep).first == range;
    RangeSplits(start, end);
    assert SplitTwo(range, RangeSep) == Pieces(start, Some(end));
    StrippedIsFixed(start);
    StrippedIsFixed(end);
  }

  /**
   * The "present" test looks at the unstripped end piece: an end written
   * with an extra space before it, as in "Jan 2020 -  present", fails the
   * test and is kept in lower case after stripping.
   */
  lemma ExperiencePaddedPresent(start: string)
    requires PlainDate(start)
    ensures ExperienceDates(start + RangeSep + " present") == Some(DateRange(start, "present"))
  {
    var end := " present";
    assert Lacks(end, '-') && Lacks(end, '\U{00B7}');
    LacksJoined(start, RangeSep, end, '\U{00B7}');
    PlainHead(start + RangeSep + end);
    RangeSplits(start, end);
    StrippedIsFixed(start);
    PaddedPresentStrips();
  }

  /** " present" is not "present" before stripping, and is after. */
  lemma PaddedPresentStrips()
    ensures Lower(" present") != "present" && Trim(" present") == "present"
  {
    var end := " present";
    assert LeadingSpaces(end[1..]) == 0;
    assert LeadingSpaces(end) == 1;
    assert TrailingSpaces(end[1..]) == 0;
    assert |Lower(end)| != |"present"|;
  }

  /** The same round trip for education ranges, where "present" is kept as written. */
  lemma EducationDatesRoundTrip(start: string, end: string)
    requires PlainDate(start) && PlainDate(end)
    ensures EducationDates(start + RangeSep + end) == Some(DateRange(start, end))
  {
    RangeSplits(start, end);
    StrippedIsFixed(start);
    StrippedIsFixed(end);
  }

  // ---------------------------------------------------------------------------
  // Experience section

  /** One kept experience entry; `title` is what decides whether it is kept. */
  datatype Experience = Experience(
    title: string,
    company: string,
    dates: Option<DateRange>,
    location: Option<string>,
    description: Option<string>)

  /** The stripped text of an entry element, when it is found. */
  function Field(entry: Entry, loc: EntryLocator): Option<string> {
    match EntryText(entry, loc)
    case None => None
    case Some(t) => Some(Trim(t))
  }

  /**
   * One list item of the Experience section, or `None` when it has no
   * title element. `company` is always there (`""` when missing);
   * `description` only when non-empty.
   */
  function ExtractExperience(entry: Entry): (r: Option<Experience>)
    ensures r.Some? <==> BoldSpan in entry
    ensures r.Some? ==> r.value.title == Trim(entry[BoldSpan])
    ensures r.Some? ==> r.value.company == (if NormalSpan in entry then Trim(entry[NormalSpan]) else "")
    ensures r.Some? ==> r.value.dates == (if LightSpan in entry then ExperienceDates(Trim(entry[LightSpan])) else None)
    ensures r.Some? ==> r.value.location == Field(entry, SecondLightSpan)
    ensures r.Some? ==> (r.value.description.Some? <==> NormalDiv in entry && Trim(entry[NormalDiv]) != "")
    ensures r.Some? && r.value.description.Some? ==> r.value.description.value == Trim(entry[NormalDiv])
  {
    match Field(entry, BoldSpan)
    case None => None
    case Some(title) =>
      var dates := match Field(entry, LightSpan) case None => None case Some(d) => ExperienceDates(d);
      var description := match Field(entry, NormalDiv) case None => None case Some(d) => NonEmpty(d);
      Some(Experience(title, Field(entry, NormalSpan).GetOr(""), dates, Field(entry, SecondLightSpan), description))
  }

  /** Each item of the Experience section, extracted on its own. */
  function ExperienceOutcomes(entries: seq<Entry>): (r: seq<Option<Experience>>)
    ensures |r| == |entries|
    ensures forall i :: 0 <= i < |entries| ==> r[i] == ExtractExperience(entries[i])
  {
    Map(ExtractExperience, entries)
  }

  /** The kept entries of a list of items, in item order. */
  function ExperienceList(entries: seq<Entry>): (r: seq<Experience>)
    ensures |r| <= |entries|
    ensures |r| == |entries| <==> forall i :: 0 <= i < |entries| ==> BoldSpan in entries[i]
    ensures forall k :: 0 <= k < |r| ==> exists i :: 0 <= i < |entries| && ExtractExperience(entries[i]) == Some(r[k])
  {
    var xs := ExperienceOutcomes(entries);
    KeepFacts(xs);
    Keep(xs)
  }

  /** `extract_experiences`: a missing section gives `[]`. */
  function ExtractExperiences(section: Option<seq<Entry>>): (r: seq<Experience>)
    ensures section.None? ==> r == []
    ensures section.Some? ==> r == ExperienceList(section.value)
  {
    match section
    case None => []
    case Some(entries) => ExperienceList(entries)
  }

  /**
   * Kept entries keep source order: the list of a concatenation is the
   * concatenation of the lists, so each item contributes in place.
   */
  lemma ExperienceListKeepsOrder(a: seq<Entry>, b: seq<Entry>)
    ensures ExperienceList(a + b) == ExperienceList(a) + ExperienceList(b)
  {
    MapAppend(ExtractExperience, a, b);
    KeepAppend(ExperienceOutcomes(a), ExperienceOutcomes(b));
  }

  /** A single item contributes its entry when it has a title and nothing otherwise. */
  lemma ExperienceListSingle(e: Entry)
    ensures ExperienceList([e]) == if BoldSpan in e then [ExtractExperience(e).value] else []
  {
    var xs := ExperienceOutcomes([e]);
    assert xs[1..] == [];
  }

  // ---------------------------------------------------------------------------
  // Education section

  /** One kept education entry; `school` is what decides whether it is kept. */
  datatype Education = Education(
    school: string,
    degree: Option<string>,
    dates: Option<DateRange>,
    fieldOfStudy: Option<string>)

  /** Raised when the field-of-study text matches the label only case-insensitively. */
  datatype ExtractError = FieldOfStudyIndexError

  const FieldLabel := "Field of study "

  /** The field-of-study text mentions the label in some letter case. */
  predicate MentionsFieldOfStudy(field: string) {
    Contains(Lower(field), "field of study")
  }

  /**
   * The field of study from the stripped text of its element: the piece
   * after the first exact "Field of study ", when the text mentions the
   * label in any case. Mentioning it without the exact label is Python's
   * `IndexError` on `split(...)[1]`.
   */
  function FieldOfStudy(field: Option<string>): (r: Result<Option<string>, ExtractError>)
    ensures field.None? || !MentionsFieldOfStudy(field.value) ==> r == Ok(None)
    ensures r.Err? <==> field.Some? && MentionsFieldOfStudy(field.value) && !Contains(field.value, FieldLabel)
    ensures r.Ok? && r.value.Some? ==> field.Some? && Contains(field.value, FieldLabel)
    ensures field.Some? && MentionsFieldOfStudy(field.value) && Contains(field.value, FieldLabel) ==> r.Ok? && r.value.Some?
  {
    match field
    case None => Ok(None)
    case Some(f) =>
      if f != "" && MentionsFieldOfStudy(f) then
        match SplitTwo(f, FieldLabel).second
        case None => Err(FieldOfStudyIndexError)
        case Some(v) => Ok(Some(v))
      else
        assert f == "" ==> !MentionsFieldOfStudy(f);
        Ok(None)
  }

  /** `v` is the piece of `f` after the first exact label, up to the next label or the end. */
  predicate LabelledValue(f: string, v: string) {
    exists i, j | 0 <= i <= j <= |f| :: SecondField(f, FieldLabel, i, j) && v == f[i + |FieldLabel|..j]
  }

  /** A field of study found is the piece after the first exact label. */
  lemma FieldOfStudyValue(field: Option<string>)
    ensures var r := FieldOfStudy(field);
            r.Ok? && r.value.Some? ==> LabelledValue(field.value, r.value.value)
  {
    if field.Some? && SplitTwo(field.value, FieldLabel).second.Some? {
      var f := field.value;
      var p := SplitTwo(f, FieldLabel);
      SplitTwoFields(f, FieldLabel);
      assert SecondField(f, FieldLabel, |p.first|, |p.first| + |FieldLabel| + |p.second.value|);
    }
  }

  /** A label in the exact case followed by a value without a second label yields the value. */
  lemma FieldOfStudyRoundTrip(v: string)
    requires !Contains(v, FieldLabel)
    ensures FieldOfStudy(Some(FieldLabel + v)) == Ok(Some(v))
  {
    LabelMentioned(v);
    LabelSplits(v);
  }

  /** Text starting with the label mentions it. */
  lemma LabelMentioned(v: string)
    ensures MentionsFieldOfStudy(FieldLabel + v)
  {
    var f := FieldLabel + v;
    assert Lower(f)[..14] == "field of study";
    assert OccursAt(Lower(f), "field of study", 0);
  }

  /** Splitting the label followed by a value without a second label gives an empty head and the value. */
  lemma LabelSplits(v: string)
    requires !Contains(v, FieldLabel)
    ensures SplitTwo(FieldLabel + v, FieldLabel) == Pieces("", Some(v))
  {
    var f := FieldLabel + v;
    assert OccursAt(f, FieldLabel, 0);
    var p := SplitTwo(f, FieldLabel);
    assert |p.first| == 0;
    var n := |FieldLabel| + |p.second.value|;
    forall k | |FieldLabel| <= k && k + |FieldLabel| <= |f|
      ensures !OccursAt(f, FieldLabel, k)
    {
      assert f[k..k + |FieldLabel|] == v[k - |FieldLabel|..k - |FieldLabel| + |FieldLabel|];
      assert !OccursAt(v, FieldLabel, k - |FieldLabel|);
    }
    assert n == |f|;
    assert f[..n] == FieldLabel + p.second.value;
    assert p.second.value == f[|FieldLabel|..] == v;
  }

  /** The label in capitals is recognised but not split: Python raises. */
  lemma FieldOfStudyCaseMismatch()
    ensures FieldOfStudy(Some("FIELD OF STUDY Physics")).Err?
  {
    var f := "FIELD OF STUDY Physics";
    assert OccursAt(Lower(f), "field of study", 0);
    forall k | 0 <= k <= |f| - |FieldLabel|
      ensures !OccursAt(f, FieldLabel, k)
    {
      assert f[k..k + |FieldLabel|][0] == f[k];
      assert f[k..k + |FieldLabel|][1] == f[k + 1];
      assert f[k] != 'F' || f[k + 1] != 'i';
    }
  }

  /**
   * One list item of the Education section: `Ok(None)` when it has no
   * school element (its other fields are never read), an error when its
   * field of study raises.
   */
  function ExtractEducationEntry(entry: Entry): (r: Result<Option<Education>, ExtractError>)
    ensures SchoolHeading !in entry ==> r == Ok(None)
    ensures SchoolHeading in entry ==> (r.Err? <==> FieldOfStudy(Field(entry, SecondNormalSpan)).Err?)
    ensures SchoolHeading in entry && r.Ok? ==> r.value.Some?
    ensures r.Ok? && r.value.Some? ==>
              && SchoolHeading in entry
              && r.value.value.school == Trim(entry[SchoolHeading])
              && r.value.value.degree == Field(entry, NormalSpan)
              && r.value.value.dates == (if LightSpan in entry then EducationDates(Trim(entry[LightSpan])) else None)
              && r.value.value.fieldOfStudy == FieldOfStudy(Field(entry, SecondNormalSpan)).value
  {
    match Field(entry, SchoolHeading)
    case None => Ok(None)
    case Some(school) =>
      var dates := match Field(entry, LightSpan) case None => None case Some(d) => EducationDates(d);
      match FieldOfStudy(Field(entry, SecondNormalSpan))
      case Err(e) => Err(e)
      case Ok(fos) => Ok(Some(Education(school, Field(entry, NormalSpan), dates, fos)))
  }

  /** Each item of the Education section, extracted on its own. */
  function EducationOutcomes(entries: seq<Entry>): (r: seq<Result<Option<Education>, ExtractError>>)
    ensures |r| == |entries|
    ensures forall i :: 0 <= i < |entries| ==> r[i] == ExtractEducationEntry(entries[i])
  {
    Map(ExtractEducationEntry, entries)
  }

  /**
   * The kept entries of a list of items, in item order, or the first
   * error: an item raises, the whole list raises.
   */
  function EducationList(entries: seq<Entry>): (r: Result<seq<Education>, ExtractError>)
    ensures r.Err? <==> exists i :: 0 <= i < |entries| && ExtractEducationEntry(entries[i]).Err?
    ensures r.Ok? ==> |r.value| <= |entries|
    ensures r.Ok? ==> (|r.value| == |entries| <==> forall i :: 0 <= i < |entries| ==> SchoolHeading in entries[i])
    ensures r.Ok? ==> forall k :: 0 <= k < |r.value| ==>
              exists i :: 0 <= i < |entries| && ExtractEducationEntry(entries[i]) == Ok(Some(r.value[k]))
  {
    var rs := EducationOutcomes(entries);
    GatherFacts(rs);
    Gather(rs)
  }

  /** Kept entries keep source order, and an error anywhere is the result's error. */
  lemma EducationListKeepsOrder(a: seq<Entry>, b: seq<Entry>)
    ensures EducationList(a + b) ==
              match EducationList(a)
              case Err(e) => Err(e)
              case Ok(x) => match EducationList(b) case Err(e) => Err(e) case Ok(y) => Ok(x + y)
  {
    MapAppend(ExtractEducationEntry, a, b);
    GatherAppend(EducationOutcomes(a), EducationOutcomes(b));
  }

  /** `extract_education`: a missing section gives `[]`. */
  function ExtractEducation(section: Option<seq<Entry>>): (r: Result<seq<Education>, ExtractError>)
    ensures section.None? ==> r == Ok([])
    ensures section.Some? ==> r == EducationList(section.value)
    ensures r.Ok? ==> |r.value| <= |section.GetOr([])|
  {
    match section
    case None => Ok([])
    case Some(entries) => EducationList(entries)
  }
}

=== FILE: json.dfy ===
/** JSON values as Python's `json` module hands them over: dicts, lists, strings, numbers, booleans and `None`. */
module Json {

  /**
   * A decoded JSON value. Objects are finite maps: Python dicts keep
   * insertion order, but dict equality ignores it and nothing here depends on it.
   */
  datatype Json =
    | JNull
    | JBool(b: bool)
    | JNum(n: int)
    | JStr(s: string)
    | JArr(items: seq<Json>)
    | JObj(fields: map<string, Json>)

  /** A Python `Dict` decoded from JSON. */
  type Object = map<string, Json>
}

=== FILE: outcomes.dfy ===
/**
 * A loop that builds a list from items one at a time, skipping some and
 * stopping at the first item that raises: the `for ... continue ...
 * append` pattern and the filtered list comprehension.
 */
module Outcomes {
  import opened Wrappers

  /** The per-item outcomes, gathered in order: the first error, or the kept values. */
  function Gather<T, E>(rs: seq<Result<Option<T>, E>>): Result<seq<T>, E> {
    if |rs| == 0 then Ok([])
    else
      match rs[0]
      case Err(e) => Err(e)
      case Ok(head) =>
        match Gather(rs[1..])
        case Err(e) => Err(e)
        case Ok(rest) => Ok((if head.Some? then [head.value] else []) + rest)
  }

  /**
   * Gathering fails exactly when some item failed; otherwise it drops
   * exactly the `None` items and every kept value comes from an item.
   */
  lemma {:induction false} GatherFacts<T, E>(rs: seq<Result<Option<T>, E>>)
    ensures Gather(rs).Err? <==> exists i :: 0 <= i < |rs| && rs[i].Err?
    ensures Gather(rs).Ok? ==>
              var r := Gather(rs).value;
              && |r| <= |rs|
              && (|r| == |rs| <==> forall i :: 0 <= i < |rs| ==> rs[i].Ok? && rs[i].value.Some?)
              && forall k :: 0 <= k < |r| ==> exists i :: 0 <= i < |rs| && rs[i] == Ok(Some(r[k]))
  {
    if |rs| > 0 {
      GatherFacts(rs[1..]);
      assert forall i :: 1 <= i < |rs| ==> rs[1..][i - 1] == rs[i];
    }
  }

  /** Gathering a concatenation gathers each part, the first part's error winning. */
  lemma {:induction false} GatherAppend<T, E>(x: seq<Result<Option<T>, E>>, y: seq<Result<Option<T>, E>>)
    ensures Gather(x + y) ==
              match Gather(x)
              case Err(e) => Err(e)
              case Ok(u) => match Gather(y) case Err(e) => Err(e) case Ok(v) => Ok(u + v)
  {
    if |x| == 0 {
      assert x + y == y;
      assert Gather(x) == Ok([]);
      if Gather(y).Ok? {
        assert [] + Gather(y).value == Gather(y).value;
      }
    } else {
      assert (x + y)[0] == x[0];
      assert (x + y)[1..] == x[1..] + y;
      GatherAppend(x[1..], y);
      match x[0]
      case Err(e) =>
      case Ok(head) =>
        var h: seq<T> := if head.Some? then [head.value] else [];
        match Gather(x[1..])
        case Err(e) =>
        case Ok(u) =>
          match Gather(y)
          case Err(e) =>
          case Ok(v) =>
            assert h + (u + v) == (h + u) + v;
    }
  }

  /** The present values of a list of optional ones, in order: the `for ... continue ... append` loop. */
  function Keep<T>(xs: seq<Option<T>>): seq<T> {
    if |xs| == 0 then []
    else (if xs[0].Some? then [xs[0].value] else []) + Keep(xs[1..])
  }

  /**
   * Keeping drops exactly the missing values: never more values than
   * items, as many exactly when none is missing, and every value kept
   * comes from an item.
   */
  lemma {:induction false} KeepFacts<T>(xs: seq<Option<T>>)
    ensures |Keep(xs)| <= |xs|
    ensures |Keep(xs)| == |xs| <==> forall i :: 0 <= i < |xs| ==> xs[i].Some?
    ensures forall k :: 0 <= k < |Keep(xs)| ==> exists i :: 0 <= i < |xs| && xs[i] == Some(Keep(xs)[k])
  {
    if |xs| > 0 {
      KeepFacts(xs[1..]);
      assert forall i :: 1 <= i < |xs| ==> xs[1..][i - 1] == xs[i];
    }
  }

  /** Keeping from a concatenation concatenates what each part keeps. */
  lemma {:induction false} KeepAppend<T>(x: seq<Option<T>>, y: seq<Option<T>>)
    ensures Keep(x + y) == Keep(x) + Keep(y)
  {
    if |x| == 0 {
      assert x + y == y;
    } else {
      assert (x + y)[0] == x[0];
      assert (x + y)[1..] == x[1..] + y;
      KeepAppend(x[1..], y);
    }
  }

  /** `f` applied to every item, in order. */
  function Map<A, B>(f: A -> B, xs: seq<A>): (r: seq<B>)
    ensures |r| == |xs|
    ensures forall i :: 0 <= i < |xs| ==> r[i] == f(xs[i])
  {
    seq(|xs|, i requires 0 <= i < |xs| => f(xs[i]))
  }

  /** Mapping a concatenation concatenates the mapped parts. */
  lemma MapAppend<A, B>(f: A -> B, x: seq<A>, y: seq<A>)
    ensures Map(f, x + y) == Map(f, x) + Map(f, y)
  {
    assert forall i :: 0 <= i < |x| ==> (x + y)[i] == x[i];
    assert forall i :: |x| <= i < |x| + |y| ==> (x + y)[i] == y[i - |x|];
  }
}

=== FILE: proxycurl.dfy ===
/**
 * `LinkedInClient`, the data-API acquisition strategy: one HTTP request,
 * a status check, JSON decoding and the cleaner. The HTTP layer is an
 * oracle from request to response.
 */
module ProxycurlClient {
  import opened Wrappers
  import opened Strings
  import opened Json
  import opened ResponseCleaner

  const ApiEndpoint := "https://nubela.co/proxycurl/api/v2/linkedin"
  const MockProfileUrl := "https://gist.githubusercontent.com/wingedRuslan/11dc8d754273d853c39a14cb2be86d85/raw/b5e61b0defad5ff07317ad37fa22b1247fdfc1c1/ruslan-yermak-linkedin.json"
  const TimeoutSeconds := 10

  /** The client's configuration: the API key after the settings fallback. */
  datatype Client = Client(apiKey: Option<string>)

  /** An outbound GET request. */
  datatype Request = Request(url: string, params: map<string, string>, headers: map<string, string>, timeout: int)

  /**
   * What the HTTP layer hands back: no response at all (a timeout or a
   * connection error raised by the request), an error status, a body that
   * is not JSON, or decoded JSON.
   */
  datatype HttpResponse = NoResponse | ErrorStatus(status: int) | NotJson | Body(json: Json)

  /** What `get_profile` raises. */
  datatype ApiError =
    | RequestFailed                // requests.get itself raises
    | HttpError(status: int)       // raise_for_status
    | DecodeError                  // response.json()
    | AttributeError               // the body, or a nested list item, is not a dict

  /** `LinkedInClient(api_key)`: an explicit key wins over the configured one. */
  function NewClient(apiKey: Option<string>, configuredKey: Option<string>): (c: Client)
    ensures apiKey.Some? && apiKey.value != "" ==> c.apiKey == apiKey
    ensures apiKey.None? || apiKey.value == "" ==> c.apiKey == configuredKey
  {
    Client(OrElse(apiKey, configuredKey))
  }

  /** Python's `f"{x}"` for an optional string. */
  function Show(x: Option<string>): string {
    match x
    case Some(s) => s
    case None => "None"
  }

  /** The live request: the profile URL as the `url` parameter, the key as a bearer token. */
  function ProfileRequest(c: Client, profileUrl: string): (r: Request)
    ensures r.url == ApiEndpoint && r.timeout == TimeoutSeconds
    ensures r.params.Keys == {"url"} && r.params["url"] == profileUrl
    ensures r.headers.Keys == {"Authorization"} && r.headers["Authorization"] == "Bearer " + Show(c.apiKey)
  {
    Request(ApiEndpoint, map["url" := profileUrl], map["Authorization" := "Bearer " + Show(c.apiKey)], TimeoutSeconds)
  }

  /** The mock request: a fixed document, no parameters and no credential. */
  function MockRequest(): Request {
    Request(MockProfileUrl, map[], map[], TimeoutSeconds)
  }

  /** Status check, decoding and cleaning of one response. */
  function Respond(resp: HttpResponse): (r: Result<Object, ApiError>)
    ensures r.Ok? <==> resp.Body? && resp.json.JObj? && Clean(resp.json.fields).Some?
    ensures r.Ok? ==> r.value == Clean(resp.json.fields).value && Normalized(r.value)
    ensures resp.NoResponse? ==> r == Err(RequestFailed)
    ensures resp.ErrorStatus? ==> r == Err(HttpError(resp.status))
    ensures resp.NotJson? ==> r == Err(DecodeError)
    ensures resp.Body? && (!resp.json.JObj? || Clean(resp.json.fields).None?) ==> r == Err(AttributeError)
  {
    match resp
    case NoResponse => Err(RequestFailed)
    case ErrorStatus(s) => Err(HttpError(s))
    case NotJson => Err(DecodeError)
    case Body(j) =>
      if !j.JObj? then Err(AttributeError)
      else match Clean(j.fields)
        case None => Err(AttributeError)
        case Some(c) => CleanNormalizes(j.fields); Ok(c)
  }

  /** `LinkedInClient.get_profile`: mock is checked first; either way the record returned is cleaned. */
  function GetProfile(c: Client, profileUrl: string, mock: bool, http: Request -> HttpResponse): (r: Result<Object, ApiError>)
    ensures mock ==> r == Respond(http(MockRequest()))
    ensures !mock ==> r == Respond(http(ProfileRequest(c, profileUrl)))
    ensures r.Ok? ==> Normalized(r.value) && Clean(r.value) == Some(r.value)
  {
    var resp := if mock then http(MockRequest()) else http(ProfileRequest(c, profileUrl));
    var r := Respond(resp);
    if r.Ok? then NormalizedIsFixed(r.value); r else r
  }

  /**
   * In mock mode only the mock document matters: two HTTP layers that agree
   * on it give the same answer, whatever they would say about the profile.
   */
  lemma MockIgnoresLiveService(c: Client, profileUrl: string, http1: Request -> HttpResponse, http2: Request -> HttpResponse)
    requires http1(MockRequest()) == http2(MockRequest())
    ensures GetProfile(c, profileUrl, true, http1) == GetProfile(c, profileUrl, true, http2)
  {
  }

  /** Outside mock mode the mock document is never fetched. */
  lemma LiveIgnoresMockDocument(c: Client, profileUrl: string, http1: Request -> HttpResponse, http2: Request -> HttpResponse)
    requires http1(ProfileRequest(c, profileUrl)) == http2(ProfileRequest(c, profileUrl))
    ensures GetProfile(c, profileUrl, false, http1) == GetProfile(c, profileUrl, false, http2)
  {
  }
}

=== FILE: records.dfy ===
/**
 * The dicts the extractors build, as JSON objects: which keys a record
 * carries is part of the source's contract (absent fields are missing
 * keys, never null placeholders).
 */
module Records {
  import opened Wrappers
  import opened Json
  import opened Extractors

  /** The location keys: `city` and `country`, or `location`, or none. */
  function PlaceObject(p: Place): (o: Object)
    ensures ("city" in o) == ("country" in o) == p.CityCountry?
    ensures "location" in o <==> p.Single?
    ensures p.CityCountry? ==> o["city"] == JStr(p.city) && o["country"] == JStr(p.country)
    ensures p.Single? ==> o["location"] == JStr(p.location)
    ensures o.Keys <= {"city", "country", "location"}
  {
    match p
    case CityCountry(city, country) => map["city" := JStr(city), "country" := JStr(country)]
    case Single(location) => map["location" := JStr(location)]
    case NoPlace => map[]
  }

  /** The basic-information dict: `full_name`, `headline` and `summary` always, the location keys when found. */
  function BasicInfoObject(b: BasicInfo): (o: Object)
    ensures "full_name" in o && "headline" in o && "summary" in o
    ensures o["full_name"] == JStr(b.fullName) && o["headline"] == JStr(b.headline) && o["summary"] == JStr(b.summary)
    ensures ("city" in o) == ("country" in o) == b.place.CityCountry?
    ensures "location" in o <==> b.place.Single?
    ensures b.place.CityCountry? ==> o["city"] == JStr(b.place.city) && o["country"] == JStr(b.place.country)
    ensures b.place.Single? ==> o["location"] == JStr(b.place.location)
    ensures !("city" in o && "location" in o)
    ensures o.Keys <= {"full_name", "headline", "summary", "city", "country", "location"}
  {
    PlaceObject(b.place) + map["full_name" := JStr(b.fullName), "headline" := JStr(b.headline), "summary" := JStr(b.summary)]
  }

  function OptionalField(key: string, v: Option<string>): (o: Object)
    ensures key in o <==> v.Some?
    ensures v.Some? ==> o[key] == JStr(v.value)
    ensures o.Keys <= {key}
  {
    match v
    case Some(x) => map[key := JStr(x)]
    case None => map[]
  }

  function DateFields(d: Option<DateRange>): (o: Object)
    ensures ("start_date" in o) == ("end_date" in o) == d.Some?
    ensures d.Some? ==> o["start_date"] == JStr(d.value.start) && o["end_date"] == JStr(d.value.end)
    ensures o.Keys <= {"start_date", "end_date"}
  {
    match d
    case Some(r) => map["start_date" := JStr(r.start), "end_date" := JStr(r.end)]
    case None => map[]
  }

  /** One experience dict: `title` and `company` always; dates as a pair; location and description when present. */
  function ExperienceObject(e: Experience): (o: Object)
    ensures "title" in o && o["title"] == JStr(e.title)
    ensures "company" in o && o["company"] == JStr(e.company)
    ensures ("start_date" in o) == ("end_date" in o) == e.dates.Some?
    ensures e.dates.Some? ==> o["start_date"] == JStr(e.dates.value.start) && o["end_date"] == JStr(e.dates.value.end)
    ensures "location" in o <==> e.location.Some?
    ensures e.location.Some? ==> o["location"] == JStr(e.location.value)
    ensures "description" in o <==> e.description.Some?
    ensures e.description.Some? ==> o["description"] == JStr(e.description.value)
    ensures o.Keys <= {"title", "company", "start_date", "end_date", "location", "description"}
  {
    DateFields(e.dates) + OptionalField("location", e.location) + OptionalField("description", e.description)
      + map["title" := JStr(e.title), "company" := JStr(e.company)]
  }

  /** One education dict: `school` always; the rest when present. */
  function EducationObject(e: Education): (o: Object)
    ensures "school" in o && o["school"] == JStr(e.school)
    ensures "degree" in o <==> e.degree.Some?
    ensures e.degree.Some? ==> o["degree"] == JStr(e.degree.value)
    ensures ("start_date" in o) == ("end_date" in o) == e.dates.Some?
    ensures e.dates.Some? ==> o["start_date"] == JStr(e.dates.value.start) && o["end_date"] == JStr(e.dates.value.end)
    ensures "field_of_study" in o <==> e.fieldOfStudy.Some?
    ensures e.fieldOfStudy.Some? ==> o["field_of_study"] == JStr(e.fieldOfStudy.value)
    ensures o.Keys <= {"school", "degree", "start_date", "end_date", "field_of_study"}
  {
    OptionalField("degree", e.degree) + DateFields(e.dates) + OptionalField("field_of_study", e.fieldOfStudy)
      + map["school" := JStr(e.school)]
  }
}

=== FILE: selenium_scraper.dfy ===
/**
 * `SeleniumLinkedInScraper`, the browser acquisition strategy, as a state
 * machine over a small record: whether a browser is open, whether it is
 * logged in, the last scrape time in integer ticks and the cooldown marker
 * file. The browser, the clock and the file system are oracles.
 */
module SeleniumScraper {
  import opened Wrappers
  import opened Strings
  import opened Json
  import opened Document
  import opened Extractors
  import opened Records

  /** The minimum gap between two scrapes when the caller gives none. */
  const DefaultCooldown := 120

  /** The contents of the `.linkedin_cooldown` marker file. */
  datatype Marker = NoMarker | Unreadable | Stamp(time: int)

  /** The scraper object. */
  datatype Scraper = Scraper(
    username: string,
    password: string,
    period: int,
    driverOpen: bool,
    loggedIn: bool,
    lastScrape: Option<int>,
    marker: Marker)

  /** Between calls: no browser, not logged in. */
  predicate Idle(s: Scraper) {
    !s.driverOpen && !s.loggedIn
  }

  /** Being logged in needs a browser. */
  predicate Consistent(s: Scraper) {
    s.loggedIn ==> s.driverOpen
  }

  /** Why a call raised. */
  datatype Cause =
    | DriverSetupFailed     // the browser could not be started
    | BrowserFailure        // a browser error outside the ones `_login` catches
    | NoDriver              // `_login` on a scraper without a browser
    | ProfileNotRendered    // the profile heading did not appear in time
    | FieldOfStudyMismatch  // the IndexError of the field-of-study split

  datatype ScrapeError = CredentialsRequired | ScrapeFailed(cause: Cause)

  /** `_load_last_scrape_time`: a missing or unparseable marker leaves no prior time. */
  function LoadMarker(m: Marker): (r: Option<int>)
    ensures r.Some? <==> m.Stamp?
    ensures m.Stamp? ==> r.value == m.time
  {
    match m
    case Stamp(t) => Some(t)
    case _ => None
  }

  predicate Truthy(x: Option<string>) {
    x.Some? && x.value != ""
  }

  /**
   * The constructor: explicit credentials win over configured ones; either
   * one still empty is a `ValueError`. An omitted cooldown period is
   * `DefaultCooldown`. A new scraper has no browser and takes its last
   * scrape time from the marker.
   */
  function NewScraper(username: Option<string>, password: Option<string>, configuredUsername: Option<string>,
                      configuredPassword: Option<string>, period: Option<int>, marker: Marker): (r: Result<Scraper, ScrapeError>)
    ensures r.Err? <==> !(Truthy(username) || Truthy(configuredUsername)) || !(Truthy(password) || Truthy(configuredPassword))
    ensures r.Err? ==> r.error == CredentialsRequired
    ensures r.Ok? ==> Idle(r.value) && r.value.marker == marker
    ensures r.Ok? && period.Some? ==> r.value.period == period.value
    ensures r.Ok? && period.None? ==> r.value.period == DefaultCooldown
    ensures r.Ok? ==> r.value.lastScrape == LoadMarker(marker)
    ensures r.Ok? ==> r.value.username != "" && r.value.password != ""
    ensures r.Ok? && Truthy(username) ==> r.value.username == username.value
    ensures r.Ok? && !Truthy(username) ==> r.value.username == configuredUsername.value
    ensures r.Ok? && Truthy(password) ==> r.value.password == password.value
    ensures r.Ok? && !Truthy(password) ==> r.value.password == configuredPassword.value
  {
    var user := OrElse(username, configuredUsername);
    var pass := OrElse(password, configuredPassword);
    if !Truthy(user) || !Truthy(pass) then Err(CredentialsRequired)
    else Ok(Scraper(user.value, pass.value, period.GetOr(DefaultCooldown), false, false, LoadMarker(marker), marker))
  }

  function Max(a: int, b: int): int {
    if a < b then b else a
  }

  /**
   * `_respect_cooldown`: how long to sleep at time `now`. After the sleep
   * the clock reads `last + period` when that is later than `now`, and
   * there is no sleep without a prior time.
   */
  function CooldownWait(last: Option<int>, period: int, now: int): (w: int)
    ensures w >= 0
    ensures last.None? ==> w == 0
    ensures last.Some? ==> now + w == Max(now, last.value + period)
  {
    match last
    case None => 0
    case Some(t) =>
      var elapsed := now - t;
      if elapsed < period then period - elapsed else 0
  }

  /**
   * The three cases of `_respect_cooldown`: no prior scrape, or one at least a
   * period ago, means no sleep; otherwise the sleep ends a period after it.
   */
  lemma CooldownCases(last: Option<int>, period: int, now: int)
    ensures last.None? ==> CooldownWait(last, period, now) == 0
    ensures last.Some? && now - last.value >= period ==> CooldownWait(last, period, now) == 0
    ensures last.Some? && now - last.value < period ==> now + CooldownWait(last, period, now) == last.value + period
  {
  }

  /** `_close_driver`: quits the browser if there is one; without one, nothing changes. */
  function CloseDriver(s: Scraper): (r: Scraper)
    ensures !r.driverOpen
    ensures s.driverOpen ==> r == s.(driverOpen := false, loggedIn := false)
    ensures !s.driverOpen ==> r == s
  {
    if s.driverOpen then s.(driverOpen := false, loggedIn := false) else s
  }

  /** Closing twice is closing once. */
  lemma CloseIdempotent(s: Scraper)
    ensures CloseDriver(CloseDriver(s)) == CloseDriver(s)
  {
  }

  /** How the login page behaves: a form field is missing, the wait times out, the browser fails, or it lands on a URL. */
  datatype LoginOutcome = FormMissing | LoginTimeout | LoginBrowserFailure | Landed(url: string)

  /** A post-login URL that shows the login went through. */
  predicate AuthenticatedUrl(url: string) {
    Contains(url, "feed") || Contains(url, "checkpoint") || Contains(url, "/in/")
  }

  /** The login attempt did not go through, without raising. */
  predicate LoginRejected(outcome: LoginOutcome) {
    outcome.FormMissing? || outcome.LoginTimeout? || (outcome.Landed? && !AuthenticatedUrl(outcome.url))
  }

  /**
   * `_login`: true without touching the browser when already logged in;
   * otherwise logged in exactly when the page lands on an authenticated
   * URL, false on a missing form field or a timeout.
   */
  function Login(s: Scraper, outcome: LoginOutcome): (r: Result<(bool, Scraper), Cause>)
    ensures s.loggedIn ==> r == Ok((true, s))
    ensures !s.loggedIn && !s.driverOpen ==> r == Err(NoDriver)
    ensures !s.loggedIn && s.driverOpen ==>
              && (r == Ok((true, s.(loggedIn := true))) <==> outcome.Landed? && AuthenticatedUrl(outcome.url))
              && (r == Ok((false, s)) <==> LoginRejected(outcome))
              && (r == Err(BrowserFailure) <==> outcome.LoginBrowserFailure?)
    ensures r.Ok? ==> r.value.0 == r.value.1.loggedIn && r.value.1 == s.(loggedIn := r.value.0)
  {
    if s.loggedIn then Ok((true, s))
    else if !s.driverOpen then Err(NoDriver)
    else
      match outcome
      case FormMissing => Ok((false, s))
      case LoginTimeout => Ok((false, s))
      case LoginBrowserFailure => Err(BrowserFailure)
      case Landed(url) => if AuthenticatedUrl(url) then Ok((true, s.(loggedIn := true))) else Ok((false, s))
  }

  /** `_save_last_scrape_time`: the time is kept in memory even if writing the marker fails. */
  function SaveScrapeTime(s: Scraper, t: int, writeOk: bool): (r: Scraper)
    ensures r.lastScrape == Some(t)
    ensures writeOk ==> LoadMarker(r.marker) == Some(t)
    ensures !writeOk ==> r.marker == s.marker
    ensures r.(lastScrape := s.lastScrape, marker := s.marker) == s
  {
    s.(lastScrape := Some(t), marker := if writeOk then Stamp(t) else s.marker)
  }

  /**
   * The inline `_extract_basic_profile_data`: one locator per field, the
   * location split as in `extract_basic_info`, the summary the stripped
   * text after the About heading.
   */
  function InlineBasicInfo(page: Page): (r: BasicInfo)
    ensures r.fullName == TextOrEmpty(page, NameTextHeading)
    ensures r.headline == TextOrEmpty(page, HeadlineText)
    ensures r.summary == TextOrEmpty(page, AboutFollowing)
    ensures LocationWithComma !in page.elements ==> r.place == NoPlace
    ensures LocationWithComma in page.elements ==> r.place == SplitLocation(Trim(page.elements[LocationWithComma]))
    ensures LocationWithComma in page.elements && Contains(page.elements[LocationWithComma], ",") ==> r.place.CityCountry?
  {
    var place := match Text(page, LocationWithComma)
      case None => NoPlace
      case Some(t) => if Contains(t, ",") then (ContainsSurvivesTrim(t, ","); SplitLocation(Trim(t))) else SplitLocation(Trim(t));
    BasicInfo(TextOrEmpty(page, NameTextHeading), TextOrEmpty(page, HeadlineText), place, TextOrEmpty(page, AboutFollowing))
  }

  /** What a scrape produced. */
  datatype Profile = Profile(basic: BasicInfo, experiences: seq<Experience>, education: seq<Education>)

  /** What `get_profile` returns: the canned record, `{}` after a failed login, or a scraped profile. */
  datatype Reply = Canned | NotLoggedIn | Scraped(profile: Profile)

  /** How navigating to the profile goes: the heading appears, it does not in time, or the browser fails. */
  datatype LoadOutcome = Rendered(page: Page) | NotRendered | NavigationFailure

  /**
   * Everything outside the scraper a call depends on: the clock when the
   * call starts, whether the browser starts, how login and navigation go,
   * the time that passes between the end of the cooldown sleep and the
   * profile heading appearing, and whether the marker can be written.
   */
  datatype Env = Env(now: int, setupOk: bool, login: LoginOutcome, load: string -> LoadOutcome, lag: nat, writeOk: bool)

  /** The scraper after a call, and what the call returned or raised. */
  datatype Step = Step(state: Scraper, reply: Result<Reply, ScrapeError>)

  /** The browser starts (or is already there), login succeeds, and the profile renders. */
  predicate ReachesProfile(s: Scraper, url: string, env: Env) {
    LogsIn(s, env) && env.load(url).Rendered?
  }

  /** The browser starts (or is already there) and login succeeds. */
  predicate LogsIn(s: Scraper, env: Env) {
    && (s.driverOpen || env.setupOk)
    && (s.loggedIn || (env.login.Landed? && AuthenticatedUrl(env.login.url)))
  }

  /** The scrape body once the profile has rendered: stamp the time, then extract. */
  function ScrapeRendered(s: Scraper, page: Page, t: int, writeOk: bool): (r: Step)
    ensures r.state.lastScrape == Some(t)
    ensures r.reply.Ok? <==> ExtractEducation(page.education).Ok?
    ensures r.reply.Err? ==> r.reply.error == ScrapeFailed(FieldOfStudyMismatch)
    ensures r.reply.Ok? ==> r.reply.value == Scraped(Profile(InlineBasicInfo(page), ExtractExperiences(page.experience),
                                                           ExtractEducation(page.education).value))
    ensures r.state == CloseDriver(SaveScrapeTime(s, t, writeOk))
  {
    var saved := SaveScrapeTime(s, t, writeOk);
    var basic := InlineBasicInfo(page);
    var experiences := ExtractExperiences(page.experience);
    match ExtractEducation(page.education)
    case Err(_) => Step(CloseDriver(saved), Err(ScrapeFailed(FieldOfStudyMismatch)))
    case Ok(education) => Step(CloseDriver(saved), Ok(Scraped(Profile(basic, experiences, education))))
  }

  /**
   * The part of `get_profile` after login: navigate, wait for the heading,
   * and scrape at time `t` once it appears; the browser is closed in every case.
   */
  function VisitProfile(session: Scraper, url: string, env: Env, t: int): (r: Step)
    ensures env.load(url).NotRendered? ==> r == Step(CloseDriver(session), Err(ScrapeFailed(ProfileNotRendered)))
    ensures env.load(url).NavigationFailure? ==> r == Step(CloseDriver(session), Err(ScrapeFailed(BrowserFailure)))
    ensures env.load(url).Rendered? ==> r == ScrapeRendered(session, env.load(url).page, t, env.writeOk)
  {
    match env.load(url)
    case NotRendered => Step(CloseDriver(session), Err(ScrapeFailed(ProfileNotRendered)))
    case NavigationFailure => Step(CloseDriver(session), Err(ScrapeFailed(BrowserFailure)))
    case Rendered(page) => ScrapeRendered(session, page, t, env.writeOk)
  }

  /**
   * `get_profile`. Mock mode answers first and touches nothing. Otherwise:
   * cooldown, browser setup, login, navigation, time stamp, extraction, and
   * in every case the browser closed at the end.
   */
  function GetProfile(s: Scraper, url: string, mock: bool, env: Env): (r: Step)
    // mock mode
    ensures mock ==> r == Step(s, Ok(Canned))
    ensures r.reply == Ok(Canned) <==> mock
    // the session always ends closed
    ensures !mock ==> !r.state.driverOpen
    ensures !mock && Consistent(s) ==> Idle(r.state)
    ensures Consistent(s) ==> Consistent(r.state)
    // a failed login returns {}
    ensures r.reply == Ok(NotLoggedIn) <==> !mock && (s.driverOpen || env.setupOk) && !s.loggedIn && LoginRejected(env.login)
    // the time stamp moves only once the profile rendered, and respects the cooldown
    ensures r.state.lastScrape != s.lastScrape ==> !mock && ReachesProfile(s, url, env)
    ensures !mock && ReachesProfile(s, url, env) ==>
              && r.state.lastScrape.Some?
              && r.state.lastScrape.value >= env.now
              && (s.lastScrape.Some? ==> r.state.lastScrape.value >= s.lastScrape.value + s.period)
              && (env.writeOk ==> LoadMarker(r.state.marker) == r.state.lastScrape)
    // the stamp is exactly now, plus the cooldown wait, plus the lag
    ensures !mock && ReachesProfile(s, url, env) ==>
              r.state.lastScrape == Some(env.now + CooldownWait(s.lastScrape, s.period, env.now) + env.lag)
    ensures !ReachesProfile(s, url, env) ==> r.state.marker == s.marker
    // a successful scrape carries the extracted sections
    ensures r.reply.Ok? && r.reply.value.Scraped? ==>
              && ReachesProfile(s, url, env)
              && r.reply.value.profile.basic == InlineBasicInfo(env.load(url).page)
              && r.reply.value.profile.experiences == ExtractExperiences(env.load(url).page.experience)
              && ExtractEducation(env.load(url).page.education) == Ok(r.reply.value.profile.education)
    // a rendered profile is scraped unless the Education section raises
    ensures !mock && ReachesProfile(s, url, env) ==> (r.reply.Ok? <==> ExtractEducation(env.load(url).page.education).Ok?)
    ensures !mock && ReachesProfile(s, url, env) && r.reply.Ok? ==>
              var page := env.load(url).page;
              r.reply.value == Scraped(Profile(InlineBasicInfo(page), ExtractExperiences(page.experience),
                                               ExtractEducation(page.education).value))
    // which error each failure raises
    ensures !mock && !s.driverOpen && !env.setupOk ==> r.reply == Err(ScrapeFailed(DriverSetupFailed))
    ensures !mock && (s.driverOpen || env.setupOk) && !s.loggedIn && env.login.LoginBrowserFailure? ==>
              r.reply == Err(ScrapeFailed(BrowserFailure))
    ensures !mock && LogsIn(s, env) && env.load(url).NotRendered? ==> r.reply == Err(ScrapeFailed(ProfileNotRendered))
    ensures !mock && LogsIn(s, env) && env.load(url).NavigationFailure? ==> r.reply == Err(ScrapeFailed(BrowserFailure))
    ensures !mock && ReachesProfile(s, url, env) && r.reply.Err? ==> r.reply.error == ScrapeFailed(FieldOfStudyMismatch)
    // configuration never changes
    ensures r.state.username == s.username && r.state.password == s.password && r.state.period == s.period
  {
    if mock then Step(s, Ok(Canned))
    else
      var resumeAt := env.now + CooldownWait(s.lastScrape, s.period, env.now);
      if !s.driverOpen && !env.setupOk then Step(CloseDriver(s), Err(ScrapeFailed(DriverSetupFailed)))
      else
        var started := s.(driverOpen := true);
        match Login(started, env.login)
        case Err(cause) => Step(CloseDriver(started), Err(ScrapeFailed(cause)))
        case Ok((ok, session)) =>
          if !ok then Step(CloseDriver(session), Ok(NotLoggedIn))
          else
            VisitProfile(session, url, env, resumeAt + env.lag)
  }

  /** The dict `get_profile` returns for a reply. */
  function ReplyObject(r: Reply): (o: Object)
    ensures r.Canned? ==> o == map["Full Name" := JStr("Test Test"), "Status" := JStr("Success")]
    ensures r.NotLoggedIn? ==> o == map[]
    ensures r.Scraped? ==> o == ProfileObject(r.profile)
  {
    match r
    case Canned => map["Full Name" := JStr("Test Test"), "Status" := JStr("Success")]
    case NotLoggedIn => map[]
    case Scraped(p) => ProfileObject(p)
  }

  /**
   * A scraped profile as a dict: the basic-information keys with their
   * values, and the `experiences` and `education` lists, one dict per
   * extracted entry in order.
   */
  function ProfileObject(p: Profile): (o: Object)
    ensures o.Keys == BasicInfoObject(p.basic).Keys + {"experiences", "education"}
    ensures "full_name" in o && o["full_name"] == JStr(p.basic.fullName)
    ensures "headline" in o && o["headline"] == JStr(p.basic.headline)
    ensures "summary" in o && o["summary"] == JStr(p.basic.summary)
    ensures p.basic.place.CityCountry? ==> o["city"] == JStr(p.basic.place.city) && o["country"] == JStr(p.basic.place.country)
    ensures p.basic.place.Single? ==> o["location"] == JStr(p.basic.place.location)
    ensures o["experiences"].JArr? && |o["experiences"].items| == |p.experiences|
    ensures forall i :: 0 <= i < |p.experiences| ==> o["experiences"].items[i] == JObj(ExperienceObject(p.experiences[i]))
    ensures o["education"].JArr? && |o["education"].items| == |p.education|
    ensures forall i :: 0 <= i < |p.education| ==> o["education"].items[i] == JObj(EducationObject(p.education[i]))
  {
    BasicInfoObject(p.basic)["experiences" := JArr(ExperienceItems(p.experiences))]["education" := JArr(EducationItems(p.education))]
  }

  /** The `experiences` list: one dict per entry, in order. */
  function ExperienceItems(xs: seq<Experience>): (r: seq<Json>)
    ensures |r| == |xs|
    ensures forall i :: 0 <= i < |xs| ==> r[i] == JObj(ExperienceObject(xs[i]))
  {
    seq(|xs|, i requires 0 <= i < |xs| => JObj(ExperienceObject(xs[i])))
  }

  /** The `education` list: one dict per entry, in order. */
  function EducationItems(xs: seq<Education>): (r: seq<Json>)
    ensures |r| == |xs|
    ensures forall i :: 0 <= i < |xs| ==> r[i] == JObj(EducationObject(xs[i]))
  {
    seq(|xs|, i requires 0 <= i < |xs| => JObj(EducationObject(xs[i])))
  }

  /**
   * A scraper built afresh from the marker a successful scrape wrote
   * starts with the same last scrape time, so its cooldown is the same.
   */
  lemma RestartKeepsCooldown(s: Scraper, url: string, env: Env)
    requires ReachesProfile(s, url, env) && env.writeOk
    requires s.username != "" && s.password != ""
    ensures var after := GetProfile(s, url, false, env).state;
            var restarted := NewScraper(Some(after.username), Some(after.password), None, None, Some(after.period), after.marker);
            && restarted.Ok?
            && restarted.value.lastScrape == after.lastScrape
            && Idle(restarted.value)
  {
  }

  /** One call to `get_profile`. */
  datatype Call = Call(url: string, mock: bool, env: Env)

  /**
   * A run of calls on one scraper, in order. Whatever happens in each
   * call, the scraper is logged out with no browser between calls, and
   * the last scrape time only moves forward when the cooldown is not negative.
   */
  method Serve(s0: Scraper, calls: seq<Call>) returns (s: Scraper, replies: seq<Result<Reply, ScrapeError>>)
    requires Consistent(s0)
    ensures |replies| == |calls|
    ensures Consistent(s)
    ensures (exists i :: 0 <= i < |calls| && !calls[i].mock) ==> Idle(s)
    ensures Idle(s0) ==> Idle(s)
    ensures forall i :: 0 <= i < |calls| ==> (replies[i] == Ok(Canned) <==> calls[i].mock)
    ensures s.username == s0.username && s.password == s0.password && s.period == s0.period
    ensures s0.period >= 0 && s0.lastScrape.Some? ==> s.lastScrape.Some? && s.lastScrape.value >= s0.lastScrape.value
  {
    s := s0;
    replies := [];
    var i := 0;
    while i < |calls|
      invariant 0 <= i <= |calls|
      invariant |replies| == i
      invariant Consistent(s)
      invariant (exists j :: 0 <= j < i && !calls[j].mock) ==> Idle(s)
      invariant Idle(s0) ==> Idle(s)
      invariant forall j :: 0 <= j < i ==> (replies[j] == Ok(Canned) <==> calls[j].mock)
      invariant s.username == s0.username && s.password == s0.password && s.period == s0.period
      invariant s0.period >= 0 && s0.lastScrape.Some? ==> s.lastScrape.Some? && s.lastScrape.value >= s0.lastScrape.value
    {
      var step := GetProfile(s, calls[i].url, calls[i].mock, calls[i].env);
      s := step.state;
      replies := replies + [step.reply];
      i := i + 1;
    }
  }
}

=== FILE: strings.dfy ===
/**
 * The handful of Python string operations the scrapers rely on:
 * `str.strip()`, `str.lower()`, the `in` substring test, the first two
 * pieces of `str.split(sep)` and `str.replace(old, new, 1)`.
 */
module Strings {
  import opened Wrappers

  /** Python's `a or b` on optional strings: `b` when `a` is `None` or empty. */
  function OrElse(a: Option<string>, b: Option<string>): (r: Option<string>)
    ensures a.Some? && a.value != "" ==> r == a
    ensures !(a.Some? && a.value != "") ==> r == b
  {
    if a.Some? && a.value != "" then a else b
  }

  /** Python's `str.isspace()` for one character: the characters `str.strip()` removes. */
  predicate IsSpace(c: char) {
    || ('\t' <= c <= '\r')
    || ('\U{1C}' <= c <= ' ')
    || c == '\U{85}' || c == '\U{A0}' || c == '\U{1680}'
    || ('\U{2000}' <= c <= '\U{200A}')
    || c == '\U{2028}' || c == '\U{2029}' || c == '\U{202F}' || c == '\U{205F}' || c == '\U{3000}'
  }

  predicate AllSpace(s: string) {
    forall i :: 0 <= i < |s| ==> IsSpace(s[i])
  }

  /** Number of whitespace characters at the start of `s`. */
  function LeadingSpaces(s: string): (n: nat)
    ensures n <= |s|
    ensures forall i :: 0 <= i < n ==> IsSpace(s[i])
    ensures n < |s| ==> !IsSpace(s[n])
  {
    if |s| == 0 || !IsSpace(s[0]) then 0 else 1 + LeadingSpaces(s[1..])
  }

  /** Number of whitespace characters at the end of `s`. */
  function TrailingSpaces(s: string): (n: nat)
    ensures n <= |s|
    ensures forall i :: |s| - n <= i < |s| ==> IsSpace(s[i])
    ensures n < |s| ==> !IsSpace(s[|s| - 1 - n])
  {
    if |s| == 0 || !IsSpace(s[|s| - 1]) then 0 else 1 + TrailingSpaces(s[..|s| - 1])
  }

  /**
   * Python's `s.strip()`: the slice of `s` after its leading whitespace,
   * neither starting nor ending with whitespace, empty exactly when `s` is
   * all whitespace (`InsideTrim`: everything cut off is whitespace).
   */
  function Trim(s: string): (r: string)
    ensures LeadingSpaces(s) + |r| <= |s|
    ensures r == s[LeadingSpaces(s)..LeadingSpaces(s) + |r|]
    ensures Stripped(r)
    ensures r == [] <==> AllSpace(s)
  {
    var a := LeadingSpaces(s);
    var t := s[a..];
    var b := TrailingSpaces(t);
    t[..|t| - b]
  }

  /** Neither starts nor ends with whitespace. */
  predicate Stripped(s: string) {
    |s| == 0 || (!IsSpace(s[0]) && !IsSpace(s[|s| - 1]))
  }

  /** `strip()` leaves a string without surrounding whitespace as it is. */
  lemma StrippedIsFixed(s: string)
    requires Stripped(s)
    ensures Trim(s) == s
  {
    assert LeadingSpaces(s) == 0;
    assert TrailingSpaces(s) == 0;
  }

  /** Python's `c.lower()` restricted to ASCII letters. */
  function LowerChar(c: char): char {
    if 'A' <= c <= 'Z' then (c as int + 32) as char else c
  }

  /** Python's `s.lower()` restricted to ASCII letters. */
  function Lower(s: string): (r: string)
    ensures |r| == |s|
    ensures forall i :: 0 <= i < |s| ==> r[i] == LowerChar(s[i])
  {
    seq(|s|, i requires 0 <= i < |s| => LowerChar(s[i]))
  }

  /** `p` occurs in `s` at position `i`. */
  predicate OccursAt(s: string, p: string, i: int) {
    0 <= i && i + |p| <= |s| && s[i..i + |p|] == p
  }

  /** Python's `p in s`. */
  predicate Contains(s: string, p: string) {
    exists i | 0 <= i <= |s| - |p| :: OccursAt(s, p, i)
  }

  /** `i` is the leftmost position where `p` occurs in `s`. */
  predicate FirstOccurrence(s: string, p: string, i: int) {
    OccursAt(s, p, i) && forall j :: 0 <= j < i ==> !OccursAt(s, p, j)
  }

  /** Leftmost occurrence of `p` in `s` at or after position `k`. */
  function FindFrom(s: string, p: string, k: nat): (r: Option<nat>)
    requires k <= |s|
    ensures r.Some? ==> k <= r.value && OccursAt(s, p, r.value)
    ensures r.Some? ==> forall j :: k <= j < r.value ==> !OccursAt(s, p, j)
    ensures r.None? ==> forall j :: k <= j ==> !OccursAt(s, p, j)
    decreases |s| - k
  {
    if k + |p| > |s| then None
    else if s[k..k + |p|] == p then Some(k)
    else FindFrom(s, p, k + 1)
  }

  /** Python's `s.find(p)`, with `None` for -1. */
  function Find(s: string, p: string): (r: Option<nat>)
    ensures r.Some? <==> Contains(s, p)
    ensures r.Some? ==> FirstOccurrence(s, p, r.value)
  {
    var r := FindFrom(s, p, 0);
    if r.Some? then assert OccursAt(s, p, r.value); r else r
  }

  /** The first two pieces of Python's `s.split(sep)`; the second is absent when `sep` does not occur. */
  datatype Pieces = Pieces(first: string, second: Option<string>)

  /**
   * `s.split(sep)[0]` and, when the split has two or more pieces,
   * `s.split(sep)[1]`.
   */
  function SplitTwo(s: string, sep: string): (r: Pieces)
    requires |sep| > 0
    ensures r.second.None? <==> !Contains(s, sep)
    ensures r.second.None? ==> r.first == s
    ensures r.second.Some? ==>
              var n := |r.first| + |sep| + |r.second.value|;
              && n <= |s|
              && s[..n] == r.first + sep + r.second.value
              && FirstOccurrence(s, sep, |r.first|)
              && (forall j :: |r.first| + |sep| <= j < n ==> !OccursAt(s, sep, j))
              && (n == |s| || OccursAt(s, sep, n))
  {
    match Find(s, sep)
    case None => Pieces(s, None)
    case Some(i) =>
      var rest := s[i + |sep|..];
      var second := match Find(rest, sep) case None => rest case Some(j) => rest[..j];
      SplitSecondFacts(s, sep, i, rest, second);
      Pieces(s[..i], Some(second))
  }

  /**
   * `s[i + |sep|..j]` is the second piece of `s.split(sep)`: `sep` first
   * occurs at `i`, does not start again before `j`, and starts at `j`
   * unless `j` is the end.
   */
  predicate SecondField(s: string, sep: string, i: int, j: int) {
    && FirstOccurrence(s, sep, i)
    && i + |sep| <= j <= |s|
    && (forall m :: i + |sep| <= m < j ==> !OccursAt(s, sep, m))
    && (j == |s| || OccursAt(s, sep, j))
  }

  /** The pieces `SplitTwo` returns are the text before the first separator and the second field. */
  lemma SplitTwoFields(s: string, sep: string)
    requires |sep| > 0 && SplitTwo(s, sep).second.Some?
    ensures var p := SplitTwo(s, sep);
            var i := |p.first|;
            var j := i + |sep| + |p.second.value|;
            SecondField(s, sep, i, j) && s[..i] == p.first && s[i + |sep|..j] == p.second.value
  {
    var p := SplitTwo(s, sep);
    var i := |p.first|;
    var j := i + |sep| + |p.second.value|;
    assert s[..j][..i] == s[..i];
    assert s[..j][i + |sep|..j] == s[i + |sep|..j];
    assert (p.first + sep + p.second.value)[i + |sep|..j] == p.second.value;
  }

  /** A slice of a slice is a slice. */
  lemma SliceOfSlice(s: string, a: int, b: int, x: int, y: int)
    requires 0 <= a <= b <= |s| && 0 <= x <= y <= b - a
    ensures s[a..b][x..y] == s[a + x..a + y]
  {
    forall k | 0 <= k < y - x
      ensures s[a..b][x..y][k] == s[a + x..a + y][k]
    {
      assert s[a..b][x..y][k] == s[a..b][x + k] == s[a + x + k];
    }
  }

  /** An occurrence in a suffix is an occurrence in the whole string, shifted. */
  lemma ShiftOccurs(s: string, p: string, base: int, j: int)
    requires 0 <= base <= j <= |s|
    ensures OccursAt(s, p, j) <==> OccursAt(s[base..], p, j - base)
  {
    assert s[base..] == s[base..|s|];
    if j + |p| <= |s| {
      SliceOfSlice(s, base, |s|, j - base, j - base + |p|);
    }
  }

  lemma SplitSecondFacts(s: string, sep: string, i: nat, rest: string, second: string)
    requires FirstOccurrence(s, sep, i) && rest == s[i + |sep|..]
    requires second == match Find(rest, sep) case None => rest case Some(j) => rest[..j]
    ensures var n := i + |sep| + |second|;
            && n <= |s|
            && s[..n] == s[..i] + sep + second
            && (forall j :: i + |sep| <= j < n ==> !OccursAt(s, sep, j))
            && (n == |s| || OccursAt(s, sep, n))
  {
    var base := i + |sep|;
    var n := base + |second|;
    assert s[i..base] == sep;
    PrefixOfSuffix(s, base, |second|);
    assert s[..n] == s[..i] + s[i..base] + s[base..n];
    match Find(rest, sep)
    case None =>
      forall j | base <= j < n
        ensures !OccursAt(s, sep, j)
      {
        ShiftOccurs(s, sep, base, j);
        assert !OccursAt(rest, sep, j - base);
      }
    case Some(k) =>
      forall j | base <= j < n
        ensures !OccursAt(s, sep, j)
      {
        ShiftOccurs(s, sep, base, j);
        assert !OccursAt(rest, sep, j - base);
      }
      ShiftOccurs(s, sep, base, n);
  }

  /** The first `k` characters of a suffix. */
  lemma PrefixOfSuffix(s: string, base: int, k: int)
    requires 0 <= base && base + k <= |s| && 0 <= k
    ensures s[base..][..k] == s[base..base + k]
  {
  }

  /**
   * Python's `s.replace(p, "", 1)`: the first occurrence of `p` cut out,
   * `s` itself when `p` does not occur.
   */
  function RemoveFirst(s: string, p: string): (r: string)
    requires |p| > 0
    ensures !Contains(s, p) ==> r == s
    ensures Contains(s, p) ==> |r| + |p| == |s| && exists i :: FirstOccurrence(s, p, i) && r == s[..i] + s[i + |p|..]
  {
    match Find(s, p)
    case None => s
    case Some(i) => s[..i] + s[i + |p|..]
  }

  /** Trimming an already-trimmed string changes nothing. */
  lemma TrimIdempotent(s: string)
    ensures Trim(Trim(s)) == Trim(s)
  {
    StrippedIsFixed(Trim(s));
  }

  /** An occurrence of a pattern without surrounding whitespace lies inside the slice `strip()` keeps. */
  lemma OccurrenceInsideTrim(s: string, p: string, i: int)
    requires |p| > 0 && !IsSpace(p[0]) && !IsSpace(p[|p| - 1])
    requires OccursAt(s, p, i)
    ensures LeadingSpaces(s) <= i && i + |p| <= LeadingSpaces(s) + |Trim(s)|
    ensures OccursAt(Trim(s), p, i - LeadingSpaces(s))
  {
    OccurrenceEnds(s, p, i);
    InsideTrim(s, i);
    InsideTrim(s, i + |p| - 1);
    OccursInSlice(s, p, i, LeadingSpaces(s), Trim(s));
  }

  /** An occurrence inside a slice `t` of `s` starting at `a` is an occurrence in `t`, shifted. */
  lemma OccursInSlice(s: string, p: string, i: int, a: int, t: string)
    requires 0 <= a <= i && i + |p| <= a + |t| <= |s| && t == s[a..a + |t|]
    requires OccursAt(s, p, i)
    ensures OccursAt(t, p, i - a)
  {
    SliceOfSlice(s, a, a + |t|, i - a, i - a + |p|);
  }

  /** A character that is not whitespace lies inside the slice `strip()` keeps. */
  lemma InsideTrim(s: string, i: int)
    requires 0 <= i < |s| && !IsSpace(s[i])
    ensures LeadingSpaces(s) <= i < LeadingSpaces(s) + |Trim(s)|
  {
    var a := LeadingSpaces(s);
    var t := s[a..];
    var b := TrailingSpaces(t);
    assert a <= i;
    assert t[i - a] == s[i];
    assert i - a < |t| - b;
  }

  /** An occurrence starts and ends with the pattern's first and last characters. */
  lemma OccurrenceEnds(s: string, p: string, i: int)
    requires |p| > 0 && OccursAt(s, p, i)
    ensures s[i] == p[0] && s[i + |p| - 1] == p[|p| - 1]
  {
    assert s[i..i + |p|][0] == s[i];
    assert s[i..i + |p|][|p| - 1] == s[i + |p| - 1];
  }

  /**
   * A pattern that neither starts nor ends with whitespace survives
   * `strip()`: whatever is cut off is whitespace, so the occurrence lies
   * inside the kept slice.
   */
  lemma ContainsSurvivesTrim(s: string, p: string)
    requires |p| > 0 && !IsSpace(p[0]) && !IsSpace(p[|p| - 1])
    requires Contains(s, p)
    ensures Contains(Trim(s), p)
  {
    var i :| 0 <= i <= |s| - |p| && OccursAt(s, p, i);
    OccurrenceInsideTrim(s, p, i);
    var k := i - LeadingSpaces(s);
    assert 0 <= k <= |Trim(s)| - |p| && OccursAt(Trim(s), p, k);
  }

  /** `c` does not occur in `s`. */
  predicate Lacks(s: string, c: char) {
    forall i :: 0 <= i < |s| ==> s[i] != c
  }

  /** A character missing from three strings is missing from their concatenation. */
  lemma LacksJoined(a: string, b: string, c: string, x: char)
    requires Lacks(a, x) && Lacks(b, x) && Lacks(c, x)
    ensures Lacks(a + b + c, x)
  {
    var s := a + b + c;
    forall i | 0 <= i < |s|
      ensures s[i] != x
    {
      if i < |a| {
        assert s[i] == a[i];
      } else if i < |a| + |b| {
        assert s[i] == b[i - |a|];
      } else {
        assert s[i] == c[i - |a| - |b|];
      }
    }
  }

  /** `sep[m]` is a character `sep` holds exactly once. */
  predicate MarksSeparator(sep: string, m: int) {
    0 <= m < |sep| && forall k :: 0 <= k < |sep| && k != m ==> sep[k] != sep[m]
  }

  /** A separator whose marker character `s` lacks does not occur in `s`. */
  lemma SplitWithoutMarker(s: string, sep: string, m: int)
    requires MarksSeparator(sep, m) && Lacks(s, sep[m])
    ensures SplitTwo(s, sep) == Pieces(s, None)
  {
    forall i | 0 <= i <= |s| - |sep|
      ensures !OccursAt(s, sep, i)
    {
      assert s[i..i + |sep|][m] == s[i + m];
    }
  }

  /**
   * Joining two pieces with a separator and splitting again gives the
   * pieces back, provided the separator's marker character occurs in neither.
   * Only the first piece needs to lack it for the first piece to come back.
   */
  lemma SplitJoined(a: string, sep: string, b: string, m: int)
    requires MarksSeparator(sep, m) && Lacks(a, sep[m])
    ensures SplitTwo(a + sep + b, sep).first == a
    ensures Lacks(b, sep[m]) ==> SplitTwo(a + sep + b, sep).second == Some(b)
  {
    var s := a + sep + b;
    assert OccursAt(s, sep, |a|) by {
      assert s[|a|..|a| + |sep|] == sep;
    }
    forall j | 0 <= j < |a| && j + |sep| <= |s|
      ensures !OccursAt(s, sep, j)
    {
      if j + m < |a| {
        assert s[j + m] == a[j + m];
      } else {
        assert s[j + m] == sep[j + m - |a|];
      }
      assert s[j..j + |sep|][m] == s[j + m];
    }
    if Lacks(b, sep[m]) {
      forall k | |a| + |sep| <= k && k + |sep| <= |s|
        ensures !OccursAt(s, sep, k)
      {
        assert s[k..k + |sep|][m] == b[k + m - |a| - |sep|];
      }
    }
    var r := SplitTwo(s, sep);
    assert FirstOccurrence(s, sep, |a|);
    assert r.first == s[..|a|] == a;
    if Lacks(b, sep[m]) {
      var n := |a| + |sep| + |r.second.value|;
      assert n == |s|;
      assert s[..n] == a + sep + r.second.value;
      assert s[|a| + |sep|..] == b;
    }
  }
}

=== FILE: tavily_search.dfy ===
/**
 * `get_profile_data_search_tavily`: a web search for a person's profile,
 * reduced to the LinkedIn profile links among the results. The search
 * client is an oracle from request to reply.
 */
module TavilySearch {
  import opened Wrappers
  import opened Strings
  import opened Json
  import opened Outcomes

  /** Appended to every query. */
  const QuerySuffix := " linkedin profile"

  /** A result is kept when its url mentions this. */
  const ProfileMarker := "linkedin.com/in/"

  /** The search sent to the client. */
  datatype SearchRequest = SearchRequest(query: string, depth: string, maxResults: int)

  /** What the client hands back: an exception, or the decoded response record. */
  datatype SearchReply = ClientFailure | Response(body: Object)

  /** Why the filter raised. */
  datatype SearchError =
    | NotADict       // `.get` on a result that is not a dict
    | NotIterable    // the "results" value cannot be iterated
    | NoMembership   // `in` on a url that is a number, a boolean or null
    | NoStrip        // `.strip()` on a url or title that is not a string

  /** One kept result: exactly a url and a title. */
  datatype Hit = Hit(url: string, title: string)

  /** The request for a search query: the query with the suffix, a basic search, at most five results. */
  function SearchFor(searchQuery: string): (r: SearchRequest)
    ensures |r.query| == |searchQuery| + |QuerySuffix|
    ensures r.query[..|searchQuery|] == searchQuery && r.query[|searchQuery|..] == QuerySuffix
    ensures r.depth == "basic" && r.maxResults == 5
  {
    SearchRequest(searchQuery + QuerySuffix, "basic", 5)
  }

  /** `d.get(k, "")`. */
  function GetOrEmpty(d: Object, k: string): (v: Json)
    ensures k in d ==> v == d[k]
    ensures k !in d ==> v == JStr("")
  {
    if k in d then d[k] else JStr("")
  }

  /**
   * Python's `needle in v`: a substring test on a string, a membership
   * test on a list, a key test on a dict, and a `TypeError` otherwise.
   */
  function Mentions(v: Json, needle: string): (r: Result<bool, SearchError>)
    ensures v.JStr? ==> r == Ok(Contains(v.s, needle))
    ensures v.JArr? ==> r == Ok(JStr(needle) in v.items)
    ensures v.JObj? ==> r == Ok(needle in v.fields)
    ensures r.Err? <==> v.JNull? || v.JBool? || v.JNum?
  {
    match v
    case JStr(s) => Ok(Contains(s, needle))
    case JArr(items) => Ok(JStr(needle) in items)
    case JObj(fields) => Ok(needle in fields)
    case _ => Err(NoMembership)
  }

  /** `v.strip()`. */
  function StripValue(v: Json): (r: Result<string, SearchError>)
    ensures r.Ok? <==> v.JStr?
    ensures r.Ok? ==> Stripped(r.value) && r.value == Trim(v.s)
  {
    match v
    case JStr(s) => Ok(Trim(s))
    case _ => Err(NoStrip)
  }

  /** A result the filter keeps without raising: a dict whose url and title are strings, the url mentioning a profile. */
  predicate WellFormedHit(item: Json) {
    && item.JObj?
    && GetOrEmpty(item.fields, "url").JStr?
    && Contains(GetOrEmpty(item.fields, "url").s, ProfileMarker)
    && GetOrEmpty(item.fields, "title").JStr?
  }

  /**
   * One raw result: skipped (`None`) when its url does not mention a
   * profile, projected to a trimmed url and title when it does, and an
   * error wherever Python raises.
   */
  function Screen(item: Json): (r: Result<Option<Hit>, SearchError>)
    ensures !item.JObj? ==> r == Err(NotADict)
    ensures r == Ok(None) <==> item.JObj? && Mentions(GetOrEmpty(item.fields, "url"), ProfileMarker) == Ok(false)
    ensures r.Ok? && r.value.Some? <==> WellFormedHit(item)
    ensures WellFormedHit(item) ==>
              r.value.value == Hit(Trim(GetOrEmpty(item.fields, "url").s), Trim(GetOrEmpty(item.fields, "title").s))
    ensures r.Ok? && r.value.Some? ==>
              Contains(r.value.value.url, ProfileMarker) && Stripped(r.value.value.url) && Stripped(r.value.value.title)
  {
    if !item.JObj? then Err(NotADict)
    else
      var url := GetOrEmpty(item.fields, "url");
      match Mentions(url, ProfileMarker)
      case Err(e) => Err(e)
      case Ok(false) => Ok(None)
      case Ok(true) =>
        match StripValue(url)
        case Err(e) => Err(e)
        case Ok(u) =>
          match StripValue(GetOrEmpty(item.fields, "title"))
          case Err(e) => Err(e)
          case Ok(t) =>
            ContainsSurvivesTrim(url.s, ProfileMarker);
            Ok(Some(Hit(u, t)))
  }

  /** Each raw result screened on its own. */
  function Screened(items: seq<Json>): (r: seq<Result<Option<Hit>, SearchError>>)
    ensures |r| == |items|
    ensures forall i :: 0 <= i < |items| ==> r[i] == Screen(items[i])
  {
    seq(|items|, i requires 0 <= i < |items| => Screen(items[i]))
  }

  /**
   * The list comprehension over the raw results: the hits of the kept
   * results in result order, or the first error.
   */
  function FilterResults(items: seq<Json>): (r: Result<seq<Hit>, SearchError>)
    ensures r.Err? <==> exists i :: 0 <= i < |items| && Screen(items[i]).Err?
    ensures r.Ok? ==> |r.value| <= |items|
    ensures r.Ok? ==> (|r.value| == |items| <==> forall i :: 0 <= i < |items| ==> WellFormedHit(items[i]))
    ensures r.Ok? ==> forall k :: 0 <= k < |r.value| ==> KeptFrom(items, r.value[k])
    ensures r.Ok? ==> forall k :: 0 <= k < |r.value| ==>
              Contains(r.value[k].url, ProfileMarker) && Stripped(r.value[k].url) && Stripped(r.value[k].title)
  {
    var rs := Screened(items);
    GatherFacts(rs);
    KeptAreWellFormed(items);
    Gather(rs)
  }

  /** `h` is the projection of a well-formed result among `items`. */
  predicate KeptFrom(items: seq<Json>, h: Hit) {
    exists i :: 0 <= i < |items| && WellFormedHit(items[i]) && Screen(items[i]) == Ok(Some(h))
  }

  /** Every value the filter keeps comes from a well-formed result. */
  lemma KeptAreWellFormed(items: seq<Json>)
    ensures var r := Gather(Screened(items));
            r.Ok? ==> forall k :: 0 <= k < |r.value| ==> KeptFrom(items, r.value[k])
  {
    var rs := Screened(items);
    GatherFacts(rs);
    if Gather(rs).Ok? {
      var r := Gather(rs).value;
      forall k | 0 <= k < |r|
        ensures KeptFrom(items, r[k])
      {
        var i :| 0 <= i < |rs| && rs[i] == Ok(Some(r[k]));
        assert rs[i] == Screen(items[i]);
      }
    }
  }

  /** Kept results keep their order, and an error anywhere is the result's error. */
  lemma FilterKeepsOrder(a: seq<Json>, b: seq<Json>)
    ensures FilterResults(a + b) ==
              match FilterResults(a)
              case Err(e) => Err(e)
              case Ok(x) => match FilterResults(b) case Err(e) => Err(e) case Ok(y) => Ok(x + y)
  {
    assert Screened(a + b) == Screened(a) + Screened(b);
    GatherAppend(Screened(a), Screened(b));
  }

  /**
   * `raw_results.get("results", [])` as Python iterates it: a missing
   * key or an empty string or dict iterates nothing, a list its items; a
   * non-empty string or dict yields items that are not dicts, and a
   * number, boolean or null cannot be iterated.
   */
  function RawResults(body: Object): (r: Result<seq<Json>, SearchError>)
    ensures "results" !in body ==> r == Ok([])
    ensures "results" in body && body["results"].JArr? ==> r == Ok(body["results"].items)
    ensures "results" in body && body["results"] in {JStr(""), JObj(map[])} ==> r == Ok([])
    ensures r.Err? <==> "results" in body && !body["results"].JArr? && body["results"] !in {JStr(""), JObj(map[])}
  {
    if "results" !in body then Ok([])
    else
      match body["results"]
      case JArr(items) => Ok(items)
      case JStr(s) => if s == "" then Ok([]) else Err(NotADict)
      case JObj(fields) => if fields == map[] then Ok([]) else Err(NotADict)
      case _ => Err(NotIterable)
  }

  /**
   * The search: the client's reply filtered down to profile links, or
   * `None` when the search call or the filter raises. The client is built
   * before the `try`, so a failure to construct it is not caught; the
   * model starts from a built client.
   */
  function ProfileSearch(searchQuery: string, search: SearchRequest -> SearchReply): (r: Option<seq<Hit>>)
    ensures search(SearchFor(searchQuery)).ClientFailure? ==> r == None
    ensures search(SearchFor(searchQuery)).Response? && "results" !in search(SearchFor(searchQuery)).body ==> r == Some([])
    ensures r.Some? ==> var b := search(SearchFor(searchQuery)).body;
              "results" in b && b["results"].JArr? ==> |r.value| <= |b["results"].items|
    ensures r.Some? ==> forall k :: 0 <= k < |r.value| ==> Contains(r.value[k].url, ProfileMarker)
    ensures var reply := search(SearchFor(searchQuery));
            r.Some? <==> reply.Response? && RawResults(reply.body).Ok? && FilterResults(RawResults(reply.body).value).Ok?
    ensures r.Some? ==> r.value == FilterResults(RawResults(search(SearchFor(searchQuery)).body).value).value
  {
    match search(SearchFor(searchQuery))
    case ClientFailure => None
    case Response(body) =>
      match RawResults(body)
      case Err(_) => None
      case Ok(items) =>
        match FilterResults(items)
        case Err(_) => None
        case Ok(hits) => Some(hits)
  }

  /** A hit as the record the function returns. */
  function HitObject(h: Hit): (o: Object)
    ensures o.Keys == {"url", "title"}
    ensures o["url"] == JStr(h.url) && o["title"] == JStr(h.title)
  {
    map["url" := JStr(h.url), "title" := JStr(h.title)]
  }

  /** Filtering its own output again changes nothing: every record is kept, as it is. */
  lemma FilterIdempotent(items: seq<Json>)
    requires FilterResults(items).Ok?
    ensures var hits := FilterResults(items).value;
            FilterResults(seq(|hits|, k requires 0 <= k < |hits| => JObj(HitObject(hits[k])))) == Ok(hits)
  {
    var hits := FilterResults(items).value;
    var again := seq(|hits|, k requires 0 <= k < |hits| => JObj(HitObject(hits[k])));
    var rs := Screened(again);
    forall k | 0 <= k < |hits|
      ensures rs[k] == Ok(Some(hits[k]))
    {
      StrippedIsFixed(hits[k].url);
      StrippedIsFixed(hits[k].title);
      assert WellFormedHit(again[k]);
    }
    GatherAllKept(rs, hits);
  }

  /** Gathering outcomes that all keep a value gives exactly those values. */
  lemma {:induction false} GatherAllKept(rs: seq<Result<Option<Hit>, SearchError>>, hits: seq<Hit>)
    requires |rs| == |hits|
    requires forall k :: 0 <= k < |rs| ==> rs[k] == Ok(Some(hits[k]))
    ensures Gather(rs) == Ok(hits)
  {
    if |rs| > 0 {
      GatherAllKept(rs[1..], hits[1..]);
      assert [hits[0]] + hits[1..] == hits;
    }
  }

  /** Results whose urls are strings without the marker are all dropped, without error. */
  lemma NoProfileLinks(items: seq<Json>)
    requires forall i :: 0 <= i < |items| ==>
               items[i].JObj? && GetOrEmpty(items[i].fields, "url").JStr?
               && !Contains(GetOrEmpty(items[i].fields, "url").s, ProfileMarker)
    ensures FilterResults(items) == Ok([])
  {
    var rs := Screened(items);
    assert forall i :: 0 <= i < |rs| ==> rs[i] == Ok(None);
    GatherFacts(rs);
    if |Gather(rs).value| > 0 {
      assert exists i :: 0 <= i < |rs| && rs[i] == Ok(Some(Gather(rs).value[0]));
    }
  }
}

=== FILE: wrappers.dfy ===
/** Optional values and success/failure results shared by every module. */
module Wrappers {

  /** A value that may be missing (Python's `None`). */
  datatype Option<+T> = None | Some(value: T) {
    function GetOr(default: T): T {
      match this
      case Some(v) => v
      case None => default
    }
  }

  /** The outcome of an operation that may raise. */
  datatype Result<+T, +E> = Ok(value: T) | Err(error: E)
}
